=== FILE: README.md ===
# Anomaly-inspection workbench: timing collector and inspect-page logic

This project is a Dafny model of the decision logic in an anomaly-detection
workbench. Two parts are modelled:

- the backend's Server-Timing collector (`application/backend/src/timing.py`);
- the React components of the *inspect* page, in both the current
  `application/ui` tree and the earlier `app/ui` tree.

The UI components are modelled as pure functions. Each one takes the state a
component holds and the data its queries returned, and yields the next state
together with the requests it sends. Rendering is reduced to what the user
sees or can act on: alert variants and headings, progress bars, row order,
selection and URLs.

Everything the code takes from outside becomes a parameter:

- the clock is an integer tick count;
- Python's `:.2f` formatting is `fmt`;
- `JSON.parse` is `parse`;
- `formatDate` is a parameter;
- whether the server accepts a prediction is `accepts`;
- the required number of normal images is `required`.

Modules, one per source component:

- `Wrappers`, `Strings`, `Paths`: shared helpers.
  - `Option` and `Result`.
  - ASCII case folding, joining and splitting.
  - The image URL `/api/projects/{p}/images/{i}/{thumbnail|full}` and its parser.
- `Timing`: `ServerTimingCollector` and its `Timer`. The header value follows
  the W3C Server Timing specification, section 3 (`name;dur=value`, comma
  separated).
- `Jobs`: the job record and the per-project filter.
- `Sse`: the server-sent-event reader `fetchSSE` and the lines it yields.
- `StatusPanel`: the current dataset status panel.
  - Training polling.
  - The "models changed" detector.
  - The job alerts and the missing-images alert.
- `Footer`: the footer's current job, stream fallback, cancel action and stage
  colours.
- `Inference`: the inference provider (model, device, opacity, predict form).
- `InspectState`, `Toolbar`, `DatasetItem`: the inspect-state context, the
  toolbar's actions and the dataset tiles.
- `ModelsView`, `ModelsPanel`: the models table and the models panel.
- `TrainableModels`: the trainable-model cards, ratings and selection.
- `LegacyStatusPanel`, `LegacyDataset`: the earlier `app/ui` status panel and
  dataset grid.

The "models changed" detector compares job lists by their status
values only (lodash `differenceBy` on `status`). So a job going from running
to completed does not invalidate the models query. Only the disappearance of
every completed job does. `StatusPanel.RunningToCompletedDoesNotInvalidate`
and `StatusPanel.CompletedJobPrunedInvalidates` state both behaviours.

## Model

| member | source | states |
|---|---|---|
| Timing.NewCollector | application/backend/src/timing.py:10-14 | a new collector holds no timings |
| Timing.Time | application/backend/src/timing.py:73-81 | `time(name)` gives a timer for that name that has not started and has no slot |
| Timing.Enter | application/backend/src/timing.py:34-49 | entering appends exactly one open entry (name, start = now, no duration) after the unchanged earlier ones; the timer records the start and the index of its slot |
| Timing.Exit | application/backend/src/timing.py:51-57 | exiting succeeds exactly when the timer was entered and its slot exists; an unentered timer is a type error; only the timer's own slot changes, and it gets duration (now − start) × 1000 |
| Timing.AsyncEnter | application/backend/src/timing.py:59-65 | the async entry behaves exactly like the sync one: one open entry appended, index recorded |
| Timing.AsyncExit | application/backend/src/timing.py:67-71 | the async exit has the same success condition and the same effect as the sync exit |
| Timing.Add | application/backend/src/timing.py:83-96 | `add` appends one closed entry with no start and the given duration, keeping all earlier entries |
| Timing.Header | application/backend/src/timing.py:98-104 | the header is empty exactly when no entry has a duration |
| Timing.HeaderSnoc | application/backend/src/timing.py:104 | appending an open entry leaves the header unchanged; appending a closed one extends it by `, name;dur=…` (or starts it) |
| Timing.HeaderValue | application/backend/src/timing.py:98-104 | the loop over the timings yields the header of all closed entries in order |
| Timing.EnterKeepsHeader | application/backend/src/timing.py:40-48 | an entry still being timed never shows up in the header |
| Timing.AddExtendsHeader | application/backend/src/timing.py:83-104 | a manual `add` puts its metric last in the header |
| Timing.ExitDurationNonNegative | application/backend/src/timing.py:40-57 | with a non-decreasing clock, enter then exit records a duration ≥ 0 in the timer's slot |
| Timing.NestedTimersKeepEntryOrder | application/backend/src/timing.py:40-57 | nested timers keep entry order (outer first), each with its own duration |
| Jobs.ForProject | application/ui/src/features/inspect/dataset/dataset-status-panel.component.tsx:269 | the project filter keeps exactly the snapshot's jobs of that project |
| Jobs.ForProjectAppend | application/ui/src/features/inspect/dataset/dataset-status-panel.component.tsx:269 | the filter distributes over concatenation, so snapshot order is kept |
| Jobs.ForProjectIdempotent | application/ui/src/features/inspect/dataset/dataset-status-panel.component.tsx:269 | filtering twice is filtering once |
| Sse.LineOf | application/ui/src/features/inspect/dataset/dataset-status-panel.component.tsx:74-81 | a frame yields one line exactly when it parses and its `text` member is truthy; a parse failure or a falsy text yields nothing |
| Sse.Run | application/ui/src/features/inspect/dataset/dataset-status-panel.component.tsx:41-90 | the reader yields at most one line per frame, every yielded line is truthy, and it ends in failure only if some frame was a channel error |
| Sse.RunFacts | application/ui/src/features/inspect/dataset/dataset-status-panel.component.tsx:41-90 | the reader keeps waiting exactly when no frame was a terminator or an error; every yielded line is truthy; at most one line per frame |
| Sse.RunAppend | application/ui/src/features/inspect/dataset/dataset-status-panel.component.tsx:66-84 | reading a stream in two parts is reading the first and, if it did not stop, continuing with the second |
| Sse.MalformedFrameSkipped | application/ui/src/features/inspect/dataset/dataset-status-panel.component.tsx:74-81 | a frame that is not JSON is skipped and reading continues |
| Sse.StopIgnoresLaterFrames | application/ui/src/features/inspect/dataset/dataset-status-panel.component.tsx:52-87 | after `DONE`, a `COMPLETED` frame or a channel error, no later frame is read, and an error ends the stream as failed |
| Sse.PrefixYieldsPrefix | application/ui/src/features/inspect/dataset/dataset-status-panel.component.tsx:66-84 | the lines yielded so far are a prefix of all lines eventually yielded |
| Sse.OneMoreFrame | application/ui/src/features/inspect/dataset/dataset-status-panel.component.tsx:57-84 | one more non-terminating frame adds at most its own line |
| Sse.ExampleSession | application/ui/src/features/inspect/dataset/dataset-status-panel.component.tsx:41-90 | `x`, garbage, `y`, `DONE` yields `x`, `y` and ends done |
| StatusPanel.AnyInFlightTraining | application/ui/src/features/inspect/dataset/dataset-status-panel.component.tsx:253-266 | the scan finds an in-flight training job of the project exactly when one exists |
| StatusPanel.TrainingRefetchInterval | application/ui/src/features/inspect/dataset/dataset-status-panel.component.tsx:253-266 | polling runs every 1000 ms exactly when the last snapshot has a pending or running training job of the project; otherwise it is off |
| StatusPanel.ProjectTrainingJobs | application/ui/src/features/inspect/dataset/dataset-status-panel.component.tsx:269 | before the first snapshot there is no list; afterwards the list holds exactly the project's jobs |
| StatusPanel.DifferenceByStatus | application/ui/src/features/inspect/dataset/dataset-status-panel.component.tsx:278-297 | a previous job survives exactly when no current job has its status value |
| StatusPanel.Observe | application/ui/src/features/inspect/dataset/dataset-status-panel.component.tsx:272-299 | a new snapshot replaces the remembered one; the models query is invalidated, once, exactly when the previous snapshot had a completed job and the new one has none; no snapshot changes nothing |
| StatusPanel.EqualSnapshotsDoNotInvalidate | application/ui/src/features/inspect/dataset/dataset-status-panel.component.tsx:278-297 | an unchanged snapshot never invalidates |
| StatusPanel.FirstSnapshotDoesNotInvalidate | application/ui/src/features/inspect/dataset/dataset-status-panel.component.tsx:272-299 | the first snapshot never invalidates |
| StatusPanel.RunningToCompletedDoesNotInvalidate | application/ui/src/features/inspect/dataset/dataset-status-panel.component.tsx:278-297 | a job going from running to completed does not invalidate |
| StatusPanel.CompletedJobPrunedInvalidates | application/ui/src/features/inspect/dataset/dataset-status-panel.component.tsx:278-297 | a completed job replaced by a running one invalidates once for the project |
| StatusPanel.TrainingAlert | application/ui/src/features/inspect/dataset/dataset-status-panel.component.tsx:169-251 | each of the five statuses gets its variant (pending/running info, completed positive, failed/canceled negative) and a heading that is the status title followed by ` - ` and the model name (`Training will start soon`, `Training in progress`, `Training failed`, `Training canceled`, `Training completed`); running shows the job's progress, pending an indeterminate bar, and completed, failed and canceled no bar; the logs button shows when the job has an id |
| StatusPanel.TrainingList | application/ui/src/features/inspect/dataset/dataset-status-panel.component.tsx:301-314 | one alert per project job, in order; nothing before the first snapshot |
| StatusPanel.DatasetStatusPanel | application/ui/src/features/inspect/dataset/dataset-status-panel.component.tsx:151-163 | with fewer than the required images, the alert shows how many are still missing (between 1 and the requirement); otherwise the job list |
| StatusPanel.PollingExamples | application/ui/src/features/inspect/dataset/dataset-status-panel.component.tsx:253-266 | a running training job polls every second; a completed one stops polling |
| Footer.ClassifyStage | application/ui/src/features/inspect/footer/footer.component.tsx:34-56 | a stage is validation exactly when its lower-cased text contains `valid`, and testing when it contains `test` but not `valid` |
| Footer.StyleForStage | application/ui/src/features/inspect/footer/footer.component.tsx:34-56 | yellow with black text exactly for validation, green for testing, blue with white text otherwise |
| Footer.StyleIgnoresCase | application/ui/src/features/inspect/footer/footer.component.tsx:35 | the colour does not depend on letter case |
| Footer.NonValidationStagesAreWhite | application/ui/src/features/inspect/footer/footer.component.tsx:34-56 | every stage that is not validation has white text; fitting-like stages share the empty stage's style |
| Footer.ValidationWinsOverTest | application/ui/src/features/inspect/footer/footer.component.tsx:37-49 | a stage that mentions both `valid` and `test` is styled as validation |
| Footer.FirstFollowed | application/ui/src/features/inspect/footer/footer.component.tsx:119-125 | the search finds the first pending or running job of the project, of any kind, or reports that none exists |
| Footer.UseCurrentJob | application/ui/src/features/inspect/footer/footer.component.tsx:113-138 | no followed job gives an all-absent record; otherwise the id, status, stage and progress of the first followed job |
| Footer.LastMessage | application/ui/src/features/inspect/footer/footer.component.tsx:156 | there is a last message exactly when the stream has received at least one chunk, and it is the final chunk |
| Footer.ShownProgress | application/ui/src/features/inspect/footer/footer.component.tsx:156-158 | the streamed progress is shown when present (even 0), else the job's |
| Footer.ShownStage | application/ui/src/features/inspect/footer/footer.component.tsx:156-158 | the streamed stage is shown when present, else the job's |
| Footer.StreamEnabled | application/ui/src/features/inspect/footer/footer.component.tsx:143-153 | the progress stream is open exactly when there is a current job id |
| Footer.Cancel | application/ui/src/features/inspect/footer/footer.component.tsx:162-179 | cancel sends one request for the current job exactly when its id is non-empty, otherwise nothing |
| Footer.ProgressBarItem | application/ui/src/features/inspect/footer/footer.component.tsx:181-185 | the training status shows exactly when the current job is running, with the shown progress, stage and stage style |
| Footer.PendingJobShowsIdle | application/ui/src/features/inspect/footer/footer.component.tsx:181-185 | a current job that is not running leaves the footer idle |
| Footer.ZeroStreamProgressWins | application/ui/src/features/inspect/footer/footer.component.tsx:156-158 | a streamed progress of 0 overrides the job's 50 |
| Footer.FirstFollowedWins | application/ui/src/features/inspect/footer/footer.component.tsx:119-137 | a pending job listed before a running one is the current job, so the footer stays idle |
| Inference.InitialSession | application/ui/src/features/inspect/inference-provider.component.tsx:82-85 | the session starts with device AUTO, no model and opacity 0.75 |
| Inference.HandleInference | application/ui/src/features/inspect/inference-provider.component.tsx:39-68 | the request targets the media's project and the model; the form holds the full-size image first; the device field is left out exactly when the new device is AUTO, and otherwise carries the new device, or the stored one if none is given |
| Inference.SelectModel | application/ui/src/features/inspect/inference-provider.component.tsx:89-97 | the model is stored; one prediction is sent exactly when the id is non-empty and an image is selected |
| Inference.SelectDevice | application/ui/src/features/inspect/inference-provider.component.tsx:99-105 | the device is stored; one prediction is sent with the new device exactly when a model and an image are selected |
| Inference.SetOpacity | application/ui/src/features/inspect/inference-provider.component.tsx:116 | only the opacity changes and nothing is sent |
| Inference.InferenceFailed | application/ui/src/features/inspect/inference-provider.component.tsx:59-66 | a failed prediction shows the server's detail as a toast and changes nothing |
| Inference.SelectDeviceSendsNewDevice | application/ui/src/features/inspect/inference-provider.component.tsx:99-105 | switching to a non-AUTO device sends that device, and switching to AUTO sends no device field |
| Inference.StoredAutoIsSent | application/ui/src/features/inspect/inference-provider.component.tsx:44-46 | a model picked while the stored device is AUTO still sends the stored AUTO device |
| Inference.ModelThenDevice | application/ui/src/features/inspect/inference-provider.component.tsx:89-105 | picking a model and then a device sends two predictions, the second with both choices |
| Inference.UseInference | application/ui/src/features/inspect/inference-provider.component.tsx:127-135 | the hook fails exactly outside a provider and otherwise returns the provided session |
| InspectState.DefaultState | application/ui/src/features/inspect/inspect-provider.tsx:24-32 | nothing is selected, there is no result and no mutation, opacity is 0.9 and the device is CPU |
| InspectState.ProviderInitialState | application/ui/src/features/inspect/inspect-provider.tsx:50-58 | the provider starts from the default state |
| InspectState.ProvidedValue | application/ui/src/features/inspect/inspect-provider.tsx:63 | the provided value carries the live mutation and is otherwise the stored state |
| InspectState.UseInspect | application/ui/src/features/inspect/inspect-provider.tsx:35-37 | outside a provider the hook falls back to the default state |
| InspectState.UseSetInspect | application/ui/src/features/inspect/inspect-provider.tsx:39-47 | the setter hook fails exactly outside a provider |
| InspectState.ProvidedMutationIsLive | application/ui/src/features/inspect/inspect-provider.tsx:49-67 | consumers always see the provider's live mutation |
| Toolbar.ConnectionStatusView | application/ui/src/features/inspect/toolbar.tsx:12-66 | connected is positive and shows stop; disconnected and failed are negative; idle is neutral; connecting is info; each status gets its caption (`Idle`, `Connecting`, `Disconnected`, `Failed`, `Connected`) |
| Toolbar.SendSequentially | application/ui/src/features/inspect/toolbar.tsx:88-104 | requests go out one at a time in order; the loop stops at the first rejected one, and the sent list is all calls up to and including it |
| Toolbar.FileCalls | application/ui/src/features/inspect/toolbar.tsx:88-95 | one call per picked file, in order, with the selected model and device |
| Toolbar.InferFiles | application/ui/src/features/inspect/toolbar.tsx:76-105 | nothing is sent without a model or without files; otherwise the files are sent in order |
| Toolbar.ImageCalls | application/ui/src/features/inspect/toolbar.tsx:128-153 | one call per dataset image, in order, downloading the image's full-size URL |
| Toolbar.InferImages | application/ui/src/features/inspect/toolbar.tsx:128-153 | nothing is sent without a model; otherwise the dataset images are sent in order (a failed download counts as the rejected call) |
| Toolbar.AllAcceptedAllSent | application/ui/src/features/inspect/toolbar.tsx:88-104 | when the server accepts every call, all of them are sent and none aborts |
| Toolbar.PickModel | application/ui/src/features/inspect/toolbar.tsx:175-179 | an empty or null key changes nothing; otherwise only the model changes |
| Toolbar.PickDevice | application/ui/src/features/inspect/toolbar.tsx:217-222 | an empty or null key changes nothing; otherwise only the device changes |
| Toolbar.SlideOpacity | application/ui/src/features/inspect/toolbar.tsx:202 | only the opacity changes |
| Toolbar.UnlistedDeviceStored | application/ui/src/features/inspect/toolbar.tsx:217-222 | a device key outside the listed ones is stored as given |
| DatasetItem.RenderTile | application/ui/src/features/inspect/dataset/dataset-item/dataset-item.component.tsx:32-74 | a missing item is a placeholder; otherwise the item's thumbnail URL and file name, selected exactly when it is the selected image |
| DatasetItem.PerformInference | application/ui/src/features/inspect/dataset/dataset-item/dataset-item.component.tsx:38-59 | one prediction exactly when a mutation is available, for the item's project and full-size image with the state's model and device |
| DatasetItem.Click | application/ui/src/features/inspect/dataset/dataset-item/dataset-item.component.tsx:63-68 | clicking a placeholder does nothing; clicking an item selects it, changes nothing else and runs the inference |
| DatasetItem.ClickSelectsTile | application/ui/src/features/inspect/dataset/dataset-item/dataset-item.component.tsx:63-74 | after a click the tile renders selected, and a prediction goes out even without a model |
| DatasetItem.AtMostOneSelected | application/ui/src/features/inspect/dataset/dataset-item/dataset-item.component.tsx:74 | two different items are never both selected |
| ModelsView.FindTrainJob | application/ui/src/features/inspect/models/models-view.tsx:51-53 | the job found is the first of the list with the model's training job id; none is found only when no job has that id |
| ModelsView.WholeSeconds | application/ui/src/features/inspect/models/models-view.tsx:55-63 | the duration is the whole seconds of the millisecond difference, rounded down |
| ModelsView.ModelRow | application/ui/src/features/inspect/models/models-view.tsx:50-77 | a model row is completed with progress 1 and carries its training job; without one its duration is 0 and it has no timestamp; with one the duration is the job's whole seconds and the timestamp is the job's start time formatted |
| ModelsView.JobRow | application/ui/src/features/inspect/models/models-view.tsx:79-93 | a job row is training exactly for pending or running jobs, is never completed and has infinite duration |
| ModelsView.NonCompleted | application/ui/src/features/inspect/models/models-view.tsx:79-80 | exactly the jobs that are not completed are kept |
| ModelsView.ModelRows | application/ui/src/features/inspect/models/models-view.tsx:50-77 | one row per model, in order |
| ModelsView.JobRows | application/ui/src/features/inspect/models/models-view.tsx:79-93 | one row per non-completed job, in order |
| ModelsView.TableRows | application/ui/src/features/inspect/models/models-view.tsx:123 | the table lists the job rows first, then the model rows |
| ModelsView.JobRowsFirst | application/ui/src/features/inspect/models/models-view.tsx:123 | every row before the models is a non-completed job |
| ModelsView.ModelRowsAfter | application/ui/src/features/inspect/models/models-view.tsx:123 | the row k places after the job rows is model k's row, and it is completed |
| ModelsView.CompletedJobsHaveNoJobRow | application/ui/src/features/inspect/models/models-view.tsx:79-123 | a row whose job is completed is always a model row |
| ModelsView.OnSelectionChange | application/ui/src/features/inspect/models/models-view.tsx:107-116 | selecting all is ignored; a key naming a model row selects it; any other key clears the model |
| ModelsView.SelectingJobRowClearsModel | application/ui/src/features/inspect/models/models-view.tsx:107-116 | selecting a job row clears the selected model and sends no prediction |
| ModelsView.SelectedKeys | application/ui/src/features/inspect/models/models-view.tsx:106 | the selection holds the selected model id and nothing else |
| ModelsView.EmptyStateAndEmptyTable | application/ui/src/features/inspect/models/models-view.tsx:123-165 | the empty state implies an empty table, but a table can be empty (only completed jobs) without the empty state |
| ModelsPanel.UseJobs | application/ui/src/features/inspect/models/models.component.tsx:28-34 | exactly the project's jobs of the snapshot |
| ModelsPanel.UseJobsKeepsOrder | application/ui/src/features/inspect/models/models.component.tsx:31 | the filter keeps snapshot order |
| ModelsPanel.TrainButtonDisabledFlag | application/ui/src/features/inspect/models/models.component.tsx:100-102 | the computed disabled flag is set exactly when there are too few images |
| ModelsPanel.TrainModelButton | application/ui/src/features/inspect/train-model/train-model-button.component.tsx:5 | the button ignores the flag and is always enabled |
| ModelsPanel.TrainButtonAlwaysEnabled | application/ui/src/features/inspect/models/models.component.tsx:100-102 | with too few images the flag is set, yet the button is enabled |
| TrainableModels.RatingOf | application/ui/src/features/inspect/train-model/trainable-model-list-box.component.tsx:130-134 | 1, 2 and 3 map to LOW, MEDIUM and HIGH, each in both directions |
| TrainableModels.RatingMapBijective | application/ui/src/features/inspect/train-model/trainable-model-list-box.component.tsx:130-134 | the rating map and the fill level invert each other |
| TrainableModels.RateColors | application/ui/src/features/inspect/train-model/trainable-model-list-box.component.tsx:21-32 | three slots; slot i is filled exactly when i is below the rating's level, and a filled slot uses the i-th tint |
| TrainableModels.FilledSlotsMatchRating | application/ui/src/features/inspect/train-model/trainable-model-list-box.component.tsx:28-32 | LOW, MEDIUM and HIGH fill 1, 2 and 3 slots |
| TrainableModels.Capitalize | application/ui/src/features/inspect/train-model/trainable-model-list-box.component.tsx:214 | the name keeps its length; the first letter is upper case and the rest lower case |
| TrainableModels.Algorithms | application/ui/src/features/inspect/train-model/trainable-model-list-box.component.tsx:10-17 | one card per trainable model, in order: template id = name, capitalised title, all ratings 1, category OTHER, license Apache 2.0 |
| TrainableModels.GeneratedCardsRateLow | application/ui/src/features/inspect/train-model/trainable-model-list-box.component.tsx:211-223 | every generated card shows the LOW bar for all three attributes |
| TrainableModels.SelectedCards | application/ui/src/features/inspect/train-model/trainable-model-list-box.component.tsx:138 | a card is selected exactly when its template id is the selected id |
| TrainableModels.AtMostOneCardSelected | application/ui/src/features/inspect/train-model/trainable-model-list-box.component.tsx:138 | with distinct template ids, at most one card is selected |
| LegacyStatusPanel.RefetchInterval | app/ui/src/features/inspect/dataset/dataset-status-panel.component.tsx:184-195 | polling is off only before the first snapshot; afterwards it is every 1000 ms whatever the statuses |
| LegacyStatusPanel.FinishedJobsStillPoll | app/ui/src/features/inspect/dataset/dataset-status-panel.component.tsx:186-193 | a snapshot where every job has finished still polls every second |
| LegacyStatusPanel.DatasetStatusPanel | app/ui/src/features/inspect/dataset/dataset-status-panel.component.tsx:208-237 | the training controls show exactly when the train request has answered or enough images exist; otherwise the number still missing |
| LegacyStatusPanel.AnsweredRequestKeepsControls | app/ui/src/features/inspect/dataset/dataset-status-panel.component.tsx:218-236 | once the train request has answered, the controls stay even with too few images |
| LegacyStatusPanel.AvailableModels | app/ui/src/features/inspect/dataset/dataset-status-panel.component.tsx:43-62 | the picker offers the 18 fixed names, each with id = name |
| LegacyStatusPanel.AvailableModelIdsDistinct | app/ui/src/features/inspect/dataset/dataset-status-panel.component.tsx:43-62 | no two picker entries share an id |
| LegacyStatusPanel.InitialReadyToTrain | app/ui/src/features/inspect/dataset/dataset-status-panel.component.tsx:75 | the first model, `ai_vad`, is selected initially |
| LegacyStatusPanel.OnSelectionChange | app/ui/src/features/inspect/dataset/dataset-status-panel.component.tsx:95 | a null key leaves the selection as it is; any other key is selected |
| LegacyStatusPanel.StartTraining | app/ui/src/features/inspect/dataset/dataset-status-panel.component.tsx:77-82 | the train body is the current project and the current selection |
| LegacyStatusPanel.StartTrainingUsesPick | app/ui/src/features/inspect/dataset/dataset-status-panel.component.tsx:75-95 | training starts with `ai_vad` untouched, with the picked key after a pick, and a later null key changes nothing |
| LegacyStatusPanel.JobProgress | app/ui/src/features/inspect/dataset/dataset-status-panel.component.tsx:116-182 | completed, pending and running are info and failed and canceled negative; completed and pending show an indeterminate bar, running its progress; the heading is the model name, ` - ` and `Finished`, `Training will start soon`, `Training in progress`, `Training failed` or `Training canceled` |
| LegacyStatusPanel.CompletedIsInfoHere | app/ui/src/features/inspect/dataset/dataset-status-panel.component.tsx:119-131 | a completed job is info and headed `Finished` here, while the current panel shows it positive and headed `Training completed` |
| LegacyStatusPanel.TrainingInProgress | app/ui/src/features/inspect/dataset/dataset-status-panel.component.tsx:184-202 | one alert per job of the snapshot, in order; nothing before the first snapshot |
| LegacyDataset.PlaceholderCount | app/ui/src/features/inspect/dataset/dataset.component.tsx:35 | no placeholders from 20 images on; below that, images plus placeholders make 20 |
| LegacyDataset.PlaceholderIds | app/ui/src/features/inspect/dataset/dataset.component.tsx:35-38 | the placeholder ids are 0 … count − 1 in order |
| LegacyDataset.DatasetItemsList | app/ui/src/features/inspect/dataset/dataset.component.tsx:47-68 | the images come first, each by its full-size URL under the route's project, then the placeholders |
| LegacyDataset.TileCount | app/ui/src/features/inspect/dataset/dataset.component.tsx:47-68 | the grid holds max(uploaded, 20) tiles |
| LegacyDataset.PlaceholdersCountUp | app/ui/src/features/inspect/dataset/dataset.component.tsx:35-68 | the tile after the images at position k is placeholder k − uploaded |
| LegacyDataset.ImageSourcesNameTheirMedia | app/ui/src/features/inspect/dataset/dataset.component.tsx:48-49 | each image URL parses back to the route's project and the media's id |
| Paths.ImagePath | application/ui/src/features/inspect/dataset/dataset-item/dataset-item.component.tsx:36 | an image URL starts with `/api/projects/{p}/images/`, ends with `{i}/{variant}`, and holds nothing else but 23 fixed characters |
| Paths.ImagePathSegments | application/ui/src/features/inspect/dataset/dataset-item/dataset-item.component.tsx:36 | the image URL is the segments `api/projects/{p}/images/{i}/{variant}` joined by `/` |
| Paths.ParseImagePathRoundTrip | application/ui/src/features/inspect/inference-provider.component.tsx:28-34 | for ids without `/`, parsing an image URL gives back the project, image and variant |
| Paths.ImagePathInjective | application/ui/src/features/inspect/inference-provider.component.tsx:28-34 | different images (ids without `/`) never share a URL |

## Left out

- I/O is reduced to parameters. This covers the HTTP queries and mutations, `EventSource`, and the clock (`time.perf_counter`). Image downloads are handled differently. `Toolbar.InferImages` counts a failed download as a rejected call through `accepts`, and the two members below assume the download succeeds.
- Inference.HandleInference: the image download before the prediction is assumed to succeed. A failed `fetch` would reject before the form is built, and that path is not modelled.
- DatasetItem.PerformInference: the same assumption holds here. The full-size image download is taken to succeed, so no rejected download is modelled.
- React rendering and layout are left out: markup, styling classes, dialogs and tooltips. Only the values a component decides are modelled.
- `Sse.StopIgnoresLaterFrames`: closing the `EventSource` is not modelled. That covers the close in `onmessage` and `onerror` and the `finally` close when a consumer stops early. The model only records how the stream ended.
- `fetchSSE` resolves its promise once per frame and can lose frames that arrive before it re-arms. The model reads one frame per step. This promise race is not modelled.
- `Timing.Exit`: durations are integer ticks × 1000, not Python floats. The header's `:.2f` rendering is the opaque `fmt` parameter.
- The footer's jobs query refetches every 5000 ms (`footer.component.tsx:114-116`). Only a single snapshot is modelled there: `Footer.UseCurrentJob` takes the current list of jobs as given, and no refetch timer is modelled.
- `ModelsView.ModelRow`: the timestamp is the opaque `formatDate`, and times are already-parsed integers. Invalid dates (`NaN`) are not modelled.
- React keys are modelled as `Option<string>`. Numeric keys are not modelled.
- `Strings.ToLower`: only ASCII letters are folded. This also covers lodash `capitalize`.
- Job statuses outside the five known values are not modelled. In the earlier panel such a job renders nothing.
- The `ServerTimingMiddleware` request wrapper is left out. Per request it creates a collector and stores it on `request.state`. It times the whole request under the name `app` and sets the `Server-Timing` response header to the collector's header value. Its parts are modelled as `Timing.NewCollector`, `Timing.Enter`/`Timing.Exit` and `Timing.HeaderValue`; the request plumbing is not.
- `useModels` in `models.component.tsx` is an identity pass-through of the query result. It is left out.
- The router, the copilot, the aside, the project hook and `train.py` are left out. So is the `NotEnoughNormalImagesToTrain` alert of the earlier dataset grid, which shows the constant 20.
- `Inference.SetOpacity` and `Toolbar.SlideOpacity` store the slider value as given. Neither the code nor the model clamps it.

=== FILE: dataset_item.dfy ===
/** One tile of the older dataset grid: a placeholder for a missing item,
    otherwise the thumbnail, which is highlighted when selected and which on
    a click selects the image and runs a prediction on its full image. */
module DatasetItem {
  import opened Wrappers
  import opened Paths
  import opened InspectState
  import Inference

  datatype Tile = Placeholder | Picture(src: string, alt: string, selected: bool)

  /** `selectedImageId === mediaItem.id`. */
  predicate IsSelected(st: State, item: Inference.MediaItem) {
    st.selectedImageId == Some(item.id)
  }

  function RenderTile(st: State, item: Option<Inference.MediaItem>): (r: Tile)
    ensures r.Placeholder? <==> item.None?
    ensures item.Some? ==> r.src == ImagePath(item.value.projectId, item.value.id, Paths.Thumbnail)
    ensures item.Some? ==> r.alt == item.value.filename
    ensures item.Some? ==> (r.selected <==> st.selectedImageId == Some(item.value.id))
  {
    match item
    case None => Placeholder
    case Some(m) => Picture(ImagePath(m.projectId, m.id, Paths.Thumbnail), m.filename, IsSelected(st, m))
  }

  /** `performInference`: the item's project, the state's model (unchecked,
      possibly absent) and device, and the item's full image; nothing is sent
      when the state holds no mutation. */
  function PerformInference(st: State, item: Inference.MediaItem): (r: seq<PredictCall>)
    ensures |r| <= 1
    ensures |r| == 1 <==> st.inferMutation.Some?
    ensures |r| == 1 ==>
      r[0] == PredictCall(item.projectId, st.selectedModelId, st.device, Downloaded(ImagePath(item.projectId, item.id, Full)))
  {
    if st.inferMutation.Some? then
      [PredictCall(item.projectId, st.selectedModelId, st.device, Downloaded(ImagePath(item.projectId, item.id, Full)))]
    else []
  }

  /** The click handler: absent for a placeholder; otherwise the new state,
      which differs only in the selected image, and the prediction it sends. */
  function Click(st: State, item: Option<Inference.MediaItem>): (r: Option<(State, seq<PredictCall>)>)
    ensures r.None? <==> item.None?
    ensures r.Some? ==> r.value.0.selectedImageId == Some(item.value.id)
    ensures r.Some? ==> r.value.0.(selectedImageId := st.selectedImageId) == st
    ensures r.Some? ==> r.value.1 == PerformInference(st, item.value)
  {
    match item
    case None => None
    case Some(m) => Some((st.(selectedImageId := Some(m.id)), PerformInference(st, m)))
  }

  /** After a click the clicked tile is the selected one, and inside a
      provider a prediction is sent even when no model is selected. */
  lemma ClickSelectsTile(st: State, live: Mutation, item: Inference.MediaItem)
    requires st.selectedModelId.None?
    ensures var (st', calls) := Click(ProvidedValue(st, live), Some(item)).value;
      RenderTile(st', Some(item)).selected
      && |calls| == 1 && calls[0].modelId.None?
  {
  }

  /** At most one tile is selected when image ids are distinct. */
  lemma AtMostOneSelected(st: State, a: Inference.MediaItem, b: Inference.MediaItem)
    requires a.id != b.id
    ensures !(RenderTile(st, Some(a)).selected && RenderTile(st, Some(b)).selected)
  {
  }
}

=== FILE: footer.dfy ===
/** The inspect page footer: the colour of the training-stage badge, the
    choice of the project's current job, the progress shown (the last
    progress-stream message, else the snapshot), the cancel action and the
    choice between the progress item and the idle item. */
module Footer {
  import opened Wrappers
  import opened Strings
  import opened Jobs

  datatype Background = Yellow600 | Green600 | Blue600
  datatype TextColour = Black | White
  datatype StageStyle = StageStyle(background: Background, text: TextColour)

  /** The branch of `getStyleForStage` a stage falls into. */
  datatype StageClass = Validation | Testing | Fitting | Unclassified

  /** Tried in order on the lower-cased stage: `valid`, then `test`, then
      `train` or `fit`. */
  function ClassifyStage(stage: string): (c: StageClass)
    ensures c == Validation <==> Contains(ToLower(stage), "valid")
    ensures c == Testing <==> !Contains(ToLower(stage), "valid") && Contains(ToLower(stage), "test")
  {
    var s := ToLower(stage);
    if Contains(s, "valid") then Validation
    else if Contains(s, "test") then Testing
    else if Contains(s, "train") || Contains(s, "fit") then Fitting
    else Unclassified
  }

  /** `getStyleForStage`. */
  function StyleForStage(stage: string): (r: StageStyle)
    ensures r.background == Yellow600 <==> Contains(ToLower(stage), "valid")
    ensures r.background == Green600 <==> !Contains(ToLower(stage), "valid") && Contains(ToLower(stage), "test")
    ensures r.text == Black <==> Contains(ToLower(stage), "valid")
  {
    match ClassifyStage(stage)
    case Validation => StageStyle(Yellow600, Black)
    case Testing => StageStyle(Green600, White)
    case Fitting => StageStyle(Blue600, White)
    case Unclassified => StageStyle(Blue600, White)
  }

  /** The classification ignores case. */
  lemma StyleIgnoresCase(stage: string)
    ensures StyleForStage(ToLower(stage)) == StyleForStage(stage)
  {
    ToLowerIdempotent(stage);
  }

  /** Every stage not mentioning `valid` is drawn with white text, and the
      train/fit branch looks exactly like the fallback. */
  lemma NonValidationStagesAreWhite(stage: string)
    requires !Contains(ToLower(stage), "valid")
    ensures StyleForStage(stage).text == White
    ensures ClassifyStage(stage) == Fitting ==> StyleForStage(stage) == StyleForStage("")
  {
  }

  /** A stage mentioning both `valid` and `test` counts as validation. */
  lemma ValidationWinsOverTest(stage: string)
    requires Contains(ToLower(stage), "valid") && Contains(ToLower(stage), "test")
    ensures ClassifyStage(stage) == Validation
    ensures StyleForStage(stage) == StageStyle(Yellow600, Black)
  {
  }

  /** The job the footer follows: of the current project, pending or running. */
  predicate Follows(j: Job, projectId: string) {
    j.projectId == projectId && InFlight(j.status)
  }

  /** `jobs.find(...)`: the position of the first followed job. */
  function FirstFollowed(jobs: seq<Job>, projectId: string): (r: Option<nat>)
    ensures r.None? <==> forall k :: 0 <= k < |jobs| ==> !Follows(jobs[k], projectId)
    ensures r.Some? ==> r.value < |jobs| && Follows(jobs[r.value], projectId)
    ensures r.Some? ==> forall k :: 0 <= k < r.value ==> !Follows(jobs[k], projectId)
    decreases |jobs|
  {
    if |jobs| == 0 then None
    else if Follows(jobs[0], projectId) then Some(0)
    else
      assert forall k :: 1 <= k < |jobs| ==> jobs[k] == jobs[1..][k - 1];
      match FirstFollowed(jobs[1..], projectId)
      case None => None
      case Some(i) => Some(i + 1)
  }

  /** What `useCurrentJob` returns; all four fields absent when no job is followed. */
  datatype CurrentJob = CurrentJob(id: Option<string>, status: Option<Status>, stage: Option<string>, progress: Option<real>)

  /** Position `k` holds the first followed job. */
  predicate IsFirstFollowed(jobs: seq<Job>, projectId: string, k: int) {
    0 <= k < |jobs| && Follows(jobs[k], projectId)
    && forall i :: 0 <= i < k ==> !Follows(jobs[i], projectId)
  }

  function FromJob(j: Job): CurrentJob {
    CurrentJob(Some(j.id), Some(j.status), Some(j.stage), Some(j.progress))
  }

  function UseCurrentJob(jobs: seq<Job>, projectId: string): (r: CurrentJob)
    ensures r.id.None? <==> forall k :: 0 <= k < |jobs| ==> !Follows(jobs[k], projectId)
    ensures r.id.None? ==> r == CurrentJob(None, None, None, None)
    ensures r.id.Some? ==>
      exists k :: IsFirstFollowed(jobs, projectId, k) && r == FromJob(jobs[k])
  {
    match FirstFollowed(jobs, projectId)
    case None => CurrentJob(None, None, None, None)
    case Some(k) =>
      assert IsFirstFollowed(jobs, projectId, k);
      FromJob(jobs[k])
  }

  /** One decoded message of the job's progress stream. */
  datatype ProgressMessage = ProgressMessage(progress: Option<real>, stage: Option<string>)

  /** `query.data?.at(-1)`: the last chunk received, if any. */
  function LastMessage(chunks: Option<seq<ProgressMessage>>): (r: Option<ProgressMessage>)
    ensures r.Some? <==> chunks.Some? && |chunks.value| > 0
    ensures r.Some? ==> r.value == chunks.value[|chunks.value| - 1]
  {
    match chunks
    case None => None
    case Some(cs) => if |cs| == 0 then None else Some(cs[|cs| - 1])
  }

  /** `lastJobProgress?.progress ?? jobProgress ?? null`. */
  function ShownProgress(last: Option<ProgressMessage>, cur: CurrentJob): (r: Option<real>)
    ensures last.Some? && last.value.progress.Some? ==> r == last.value.progress
    ensures !(last.Some? && last.value.progress.Some?) ==> r == cur.progress
  {
    match last
    case Some(m) => m.progress.OrElse(cur.progress)
    case None => cur.progress
  }

  /** `lastJobProgress?.stage ?? jobStage ?? null`. */
  function ShownStage(last: Option<ProgressMessage>, cur: CurrentJob): (r: Option<string>)
    ensures last.Some? && last.value.stage.Some? ==> r == last.value.stage
    ensures !(last.Some? && last.value.stage.Some?) ==> r == cur.stage
  {
    match last
    case Some(m) => m.stage.OrElse(cur.stage)
    case None => cur.stage
  }

  /** The progress stream is opened only for an existing current job id. */
  function StreamEnabled(cur: CurrentJob): (b: bool)
    ensures b <==> cur.id.Some?
  {
    cur.id != None
  }

  /** The cancel request the footer sends. */
  datatype CancelRequest = CancelJob(jobId: string)

  /** `handleCancel`: no request without a (non-empty) current job id. */
  function Cancel(cur: CurrentJob): (r: seq<CancelRequest>)
    ensures |r| <= 1
    ensures |r| == 1 <==> Truthy(cur.id)
    ensures |r| == 1 ==> r[0] == CancelJob(cur.id.value)
  {
    if Truthy(cur.id) then [CancelJob(cur.id.value)] else []
  }

  /** The footer item: the idle item, or the stage badge with its progress. */
  datatype FooterItem = Idle | TrainingStatus(progress: real, stage: string, style: StageStyle)

  /** `ProgressBarItem`: the badge only while the current job is running,
      absent progress shown as 0 and absent stage as the empty string. */
  function ProgressBarItem(cur: CurrentJob, chunks: Option<seq<ProgressMessage>>): (r: FooterItem)
    ensures r.TrainingStatus? <==> cur.status == Some(Running)
    ensures r.TrainingStatus? ==>
      && r.progress == ShownProgress(LastMessage(chunks), cur).GetOr(0.0)
      && r.stage == ShownStage(LastMessage(chunks), cur).GetOr("")
      && r.style == StyleForStage(r.stage)
  {
    var last := LastMessage(chunks);
    if cur.status == Some(Running) then
      var stage := ShownStage(last, cur).GetOr("");
      TrainingStatus(ShownProgress(last, cur).GetOr(0.0), stage, StyleForStage(stage))
    else Idle
  }

  /** A pending job shows the idle item, and so does no job at all. */
  lemma PendingJobShowsIdle(jobs: seq<Job>, projectId: string, chunks: Option<seq<ProgressMessage>>)
    requires UseCurrentJob(jobs, projectId).status != Some(Running)
    ensures ProgressBarItem(UseCurrentJob(jobs, projectId), chunks) == Idle
  {
  }

  /** A stream message reporting progress 0 still wins over the snapshot:
      the fallback is on absence, not on falsiness. */
  lemma ZeroStreamProgressWins(cur: CurrentJob, stage: Option<string>)
    requires cur.status == Some(Running) && cur.progress == Some(50.0)
    ensures ProgressBarItem(cur, Some([ProgressMessage(Some(0.0), stage)])).progress == 0.0
  {
  }

  /** The footer follows the first pending-or-running job of the project, even
      when a running one comes later. */
  lemma FirstFollowedWins(a: Job, b: Job, projectId: string)
    requires a.projectId == projectId && a.status == Pending
    requires b.projectId == projectId && b.status == Running
    ensures UseCurrentJob([a, b], projectId).id == Some(a.id)
    ensures ProgressBarItem(UseCurrentJob([a, b], projectId), None) == Idle
  {
  }
}

=== FILE: inference.dfy ===
/** The inference session of the inspect page (`InferenceProvider`): the
    selected model, device and overlay opacity, as transition functions that
    return the new session and the requests and notifications they emit
    instead of firing them. The selected media item comes from a sibling
    provider and is a parameter. */
module Inference {
  import opened Wrappers
  import opened Strings
  import opened Paths

  datatype Device = Cpu | Gpu | Npu | Auto

  datatype MediaItem = MediaItem(id: string, projectId: string, filename: string)

  /** A field of the multipart body: the image (downloaded from `url` and
      named `filename`) or the target device. */
  datatype FormField = FileField(url: string, filename: string) | DeviceField(device: Device)

  /** `POST /api/projects/{projectId}/models/{modelId}:predict` with `form`. */
  datatype PredictRequest = PredictRequest(projectId: string, modelId: string, form: seq<FormField>)

  /** What a transition emits. */
  datatype Output = Infer(request: PredictRequest) | Toast(message: string)

  datatype Session = Session(device: Device, selectedModelId: Option<string>, opacity: real)

  /** The provider's initial state. */
  function InitialSession(): (s: Session)
    ensures s.device == Auto && s.selectedModelId.None? && s.opacity == 0.75
  {
    Session(Auto, None, 0.75)
  }

  /** `handleInference(media, modelId, newDevice?)` for the provider's stored
      device: the file is always sent; the device field is left out only when
      the explicitly passed device is `auto`, and without an explicit device
      the stored one is sent, `auto` included. */
  function HandleInference(stored: Device, media: MediaItem, modelId: string, newDevice: Option<Device>): (r: PredictRequest)
    ensures r.projectId == media.projectId && r.modelId == modelId
    ensures |r.form| >= 1 && r.form[0] == FileField(ImagePath(media.projectId, media.id, Full), media.filename)
    ensures |r.form| == 1 <==> newDevice == Some(Auto)
    ensures |r.form| == 2 ==> r.form[1] == DeviceField(newDevice.GetOr(stored))
    ensures |r.form| <= 2
  {
    var file := FileField(ImagePath(media.projectId, media.id, Full), media.filename);
    if newDevice != Some(Auto) then
      PredictRequest(media.projectId, modelId, [file, DeviceField(newDevice.GetOr(stored))])
    else
      PredictRequest(media.projectId, modelId, [file])
  }

  /** `onSetSelectedModelId`: always stores the id; infers with it when it is
      truthy and a media item is selected. */
  function SelectModel(s: Session, media: Option<MediaItem>, modelId: Option<string>): (r: (Session, seq<Output>))
    ensures r.0 == s.(selectedModelId := modelId)
    ensures |r.1| <= 1
    ensures |r.1| == 1 <==> Truthy(modelId) && media.Some?
    ensures |r.1| == 1 ==> r.1[0] == Infer(HandleInference(s.device, media.value, modelId.value, None))
  {
    var s' := s.(selectedModelId := modelId);
    if Truthy(modelId) && media.Some? then
      (s', [Infer(HandleInference(s.device, media.value, modelId.value, None))])
    else (s', [])
  }

  /** `onSetSelectedDevice`: always stores the device; re-infers with it,
      passed explicitly, when both a model and a media item are selected. */
  function SelectDevice(s: Session, media: Option<MediaItem>, device: Device): (r: (Session, seq<Output>))
    ensures r.0 == s.(device := device)
    ensures |r.1| <= 1
    ensures |r.1| == 1 <==> Truthy(s.selectedModelId) && media.Some?
    ensures |r.1| == 1 ==> r.1[0] == Infer(HandleInference(s.device, media.value, s.selectedModelId.value, Some(device)))
  {
    var s' := s.(device := device);
    if Truthy(s.selectedModelId) && media.Some? then
      (s', [Infer(HandleInference(s.device, media.value, s.selectedModelId.value, Some(device)))])
    else (s', [])
  }

  /** `onInferenceOpacityChange`: stores the value as given, unclamped. */
  function SetOpacity(s: Session, opacity: real): (r: (Session, seq<Output>))
    ensures r.0.opacity == opacity && r.0.device == s.device && r.0.selectedModelId == s.selectedModelId
    ensures r.1 == []
  {
    (s.(opacity := opacity), [])
  }

  /** A failed prediction only raises a toast with the error detail. */
  function InferenceFailed(s: Session, detail: string): (r: (Session, seq<Output>))
    ensures r.0 == s
    ensures r.1 == [Toast(detail)]
  {
    (s, [Toast(detail)])
  }

  /** The device sent with a re-inference is the newly chosen one, and it is
      left out exactly when that device is `auto`. */
  lemma SelectDeviceSendsNewDevice(s: Session, media: MediaItem, device: Device)
    requires Truthy(s.selectedModelId)
    ensures var out := SelectDevice(s, Some(media), device).1;
      |out| == 1 && out[0].Infer?
      && (device == Auto <==> |out[0].request.form| == 1)
      && (device != Auto ==> out[0].request.form[1] == DeviceField(device))
  {
  }

  /** Selecting a model with the initial session sends the stored `auto`
      device explicitly: the omission applies only to an explicit `auto`. */
  lemma StoredAutoIsSent(media: MediaItem, modelId: string)
    requires modelId != ""
    ensures var out := SelectModel(InitialSession(), Some(media), Some(modelId)).1;
      |out| == 1 && out[0].request.form[1] == DeviceField(Auto)
  {
  }

  /** Selecting model M1 and then device GPU with a media item selected
      initiates exactly two predictions, the second carrying GPU. */
  lemma ModelThenDevice(media: MediaItem, m1: string)
    requires m1 != ""
    ensures var (s1, out1) := SelectModel(InitialSession(), Some(media), Some(m1));
      var (s2, out2) := SelectDevice(s1, Some(media), Gpu);
      |out1 + out2| == 2
      && (out1 + out2)[0].Infer? && (out1 + out2)[0].request.modelId == m1
      && (out1 + out2)[1].Infer? && (out1 + out2)[1].request.modelId == m1
      && (out1 + out2)[1].request.form[1] == DeviceField(Gpu)
      && s2 == Session(Gpu, Some(m1), 0.75)
  {
  }

  /** The context a consumer reads, or the error `useInference` throws
      outside a provider. */
  datatype ContextError = NotWithinInferenceProvider

  function UseInference(context: Option<Session>): (r: Result<Session, ContextError>)
    ensures r.Failure? <==> context.None?
    ensures r.Success? ==> r.value == context.value
  {
    match context
    case None => Failure(NotWithinInferenceProvider)
    case Some(s) => Success(s)
  }
}

=== FILE: inspect_state.dfy ===
/** The older inspect-page state holder (`InspectProvider`): the selected
    model, image and file, the last result, the prediction mutation, the
    overlay opacity and the device, shared through two contexts. */
module InspectState {
  import opened Wrappers

  /** A file the user picked. */
  datatype LocalFile = LocalFile(name: string)

  datatype Prediction = Prediction(verdict: string, score: real)

  /** The prediction mutation of the provider; only its identity matters. */
  datatype Mutation = Mutation(handle: nat)

  /** Where the image of a prediction comes from. */
  datatype FileSource = Picked(file: LocalFile) | Downloaded(url: string)

  /** `inferMutation.mutateAsync` with path, `device` query and file body. */
  datatype PredictCall = PredictCall(projectId: string, modelId: Option<string>, device: string, file: FileSource)

  /** `InspectState`; `device` is a string because the device picker stores
      any non-empty key. */
  datatype State = State(
    selectedModelId: Option<string>,
    selectedImageId: Option<string>,
    selectedFile: Option<LocalFile>,
    result: Option<Prediction>,
    inferMutation: Option<Mutation>,
    opacity: real,
    device: string)

  /** The context's default value. */
  function DefaultState(): (s: State)
    ensures s.selectedModelId.None? && s.selectedImageId.None? && s.selectedFile.None?
    ensures s.result.None? && s.inferMutation.None?
    ensures s.opacity == 0.9 && s.device == "CPU"
  {
    State(None, None, None, None, None, 0.9, "CPU")
  }

  /** The provider's initial state, written out separately in the source. */
  function ProviderInitialState(): (s: State)
    ensures s == DefaultState()
  {
    State(None, None, None, None, None, 0.9, "CPU")
  }

  /** The value the provider publishes: its state with the live mutation in
      place of whatever mutation the state holds. */
  function ProvidedValue(s: State, live: Mutation): (r: State)
    ensures r.inferMutation == Some(live)
    ensures r.(inferMutation := s.inferMutation) == s
  {
    s.(inferMutation := Some(live))
  }

  /** `useInspect`: the provided value, or the default outside a provider;
      it never fails. */
  function UseInspect(provided: Option<State>): (r: State)
    ensures provided.Some? ==> r == provided.value
    ensures provided.None? ==> r == DefaultState()
  {
    provided.GetOr(DefaultState())
  }

  datatype ContextError = NoSetInspectProvider

  /** The state setter a consumer gets. */
  datatype Setter = Setter

  /** `useSetInspect`: fails outside a provider. */
  function UseSetInspect(setter: Option<Setter>): (r: Result<Setter, ContextError>)
    ensures r.Failure? <==> setter.None?
  {
    match setter
    case None => Failure(NoSetInspectProvider)
    case Some(f) => Success(f)
  }

  /** Inside a provider every consumer sees the live mutation, so the
      toolbar's `inferMutation!` is defined. */
  lemma ProvidedMutationIsLive(s: State, live: Mutation)
    ensures UseInspect(Some(ProvidedValue(s, live))).inferMutation == Some(live)
  {
  }
}

=== FILE: jobs.dfy ===
/** The job records the UI receives from `/api/jobs`, and the per-project
    filter that several panels apply to a snapshot. */
module Jobs {

  datatype Status = Pending | Running | Completed | Failed | Canceled

  /** A job as observed in one snapshot. `startTime`/`endTime` are
      milliseconds since the epoch, already parsed. */
  datatype Job = Job(
    id: string,
    projectId: string,
    kind: string,
    status: Status,
    message: string,
    progress: real,
    stage: string,
    modelName: string,
    startTime: int,
    endTime: int)

  /** Pending or running: work the server has not finished. */
  predicate InFlight(s: Status) {
    s == Running || s == Pending
  }

  /** `jobs.filter((job) => job.project_id === projectId)`. */
  function ForProject(jobs: seq<Job>, projectId: string): (r: seq<Job>)
    ensures |r| <= |jobs|
    ensures forall k :: 0 <= k < |r| ==> r[k].projectId == projectId && r[k] in jobs
    ensures forall j :: j in jobs && j.projectId == projectId ==> j in r
    decreases |jobs|
  {
    if |jobs| == 0 then []
    else
      var init := ForProject(jobs[..|jobs| - 1], projectId);
      var last := jobs[|jobs| - 1];
      assert jobs == jobs[..|jobs| - 1] + [last];
      if last.projectId == projectId then init + [last] else init
  }

  /** The filter distributes over concatenation, so it keeps the snapshot's
      order. */
  lemma {:induction false} ForProjectAppend(a: seq<Job>, b: seq<Job>, projectId: string)
    ensures ForProject(a + b, projectId) == ForProject(a, projectId) + ForProject(b, projectId)
    decreases |b|
  {
    if |b| == 0 {
      assert a + b == a;
    } else {
      var b' := b[..|b| - 1];
      assert (a + b)[..|a + b| - 1] == a + b';
      ForProjectAppend(a, b', projectId);
    }
  }

  /** A job of the project is kept, one of another project is dropped. */
  lemma ForProjectSingle(j: Job, projectId: string)
    ensures ForProject([j], projectId) == (if j.projectId == projectId then [j] else [])
  {
  }

  /** Filtering twice is filtering once. */
  lemma {:induction false} ForProjectIdempotent(jobs: seq<Job>, projectId: string)
    ensures ForProject(ForProject(jobs, projectId), projectId) == ForProject(jobs, projectId)
    decreases |jobs|
  {
    if |jobs| > 0 {
      var init := jobs[..|jobs| - 1];
      var last := jobs[|jobs| - 1];
      ForProjectIdempotent(init, projectId);
      ForProjectAppend(ForProject(init, projectId), if last.projectId == projectId then [last] else [], projectId);
      ForProjectSingle(last, projectId);
      if last.projectId != projectId {
        assert ForProject([], projectId) == [];
      }
    }
  }
}

=== FILE: legacy_dataset.dfy ===
/** The earlier dataset grid: the uploaded images as full-size pictures,
    topped up with placeholder tiles to a fixed minimum. */
module LegacyDataset {
  import opened Wrappers
  import opened Paths
  import Inference

  /** The grid always shows at least this many tiles. */
  const MinimumTiles: nat := 20

  /** A grid cell: an uploaded image or a placeholder keyed by its index. */
  datatype GridTile = Image(src: string) | PlaceholderTile(key: nat)

  /** `Math.max(0, 20 - uploaded)`. */
  function PlaceholderCount(uploaded: nat): (r: nat)
    ensures uploaded >= MinimumTiles ==> r == 0
    ensures uploaded < MinimumTiles ==> uploaded + r == MinimumTiles
  {
    if MinimumTiles - uploaded > 0 then MinimumTiles - uploaded else 0
  }

  /** The placeholder entries' ids: `0 .. count - 1` in order. */
  function PlaceholderIds(uploaded: nat): (r: seq<nat>)
    ensures |r| == PlaceholderCount(uploaded)
    ensures forall k :: 0 <= k < |r| ==> r[k] == k
  {
    seq(PlaceholderCount(uploaded), k requires 0 <= k => k)
  }

  /** `DatasetItemsList`: every uploaded image by its full-size URL under the
      route's project, then the placeholders. */
  function DatasetItemsList(projectId: string, media: seq<Inference.MediaItem>): (r: seq<GridTile>)
    ensures |r| == |media| + PlaceholderCount(|media|)
    ensures forall k :: 0 <= k < |media| ==> r[k] == Image(ImagePath(projectId, media[k].id, Full))
    ensures forall k :: |media| <= k < |r| ==> r[k] == PlaceholderTile(PlaceholderIds(|media|)[k - |media|])
  {
    var images := seq(|media|, k requires 0 <= k < |media| => Image(ImagePath(projectId, media[k].id, Full)));
    var ids := PlaceholderIds(|media|);
    images + seq(|ids|, k requires 0 <= k < |ids| => PlaceholderTile(ids[k]))
  }

  /** The grid holds `max(uploaded, 20)` tiles. */
  lemma TileCount(projectId: string, media: seq<Inference.MediaItem>)
    ensures |DatasetItemsList(projectId, media)| == if |media| > MinimumTiles then |media| else MinimumTiles
  {
  }

  /** Placeholders follow the images and count up from zero. */
  lemma PlaceholdersCountUp(projectId: string, media: seq<Inference.MediaItem>, k: nat)
    requires |media| <= k < MinimumTiles
    ensures DatasetItemsList(projectId, media)[k] == PlaceholderTile(k - |media|)
  {
  }

  /** Every image's URL names its media item's id under the route's project
      (ids without '/'), whatever project the item itself records. */
  lemma ImageSourcesNameTheirMedia(projectId: string, media: seq<Inference.MediaItem>, k: nat)
    requires k < |media|
    requires '/' !in projectId && '/' !in media[k].id
    ensures var tile := DatasetItemsList(projectId, media)[k];
      tile.Image? && ParseImagePath(tile.src) == Some((projectId, media[k].id, Full))
  {
    ParseImagePathRoundTrip(projectId, media[k].id, Full);
  }
}

=== FILE: legacy_status_panel.dfy ===
/** The earlier dataset status panel: polling `/api/jobs`, the choice between
    the missing-images alert and the training controls, the model picker
    with its request body, and one alert per job. */
module LegacyStatusPanel {
  import opened Wrappers
  import opened Strings
  import opened Jobs
  import StatusPanel

  /** `refetchInterval`: `some` on a present snapshot is a boolean, never
      undefined, so polling runs once any snapshot exists, whatever the
      statuses are. */
  function RefetchInterval(last: Option<seq<Job>>): (r: StatusPanel.Interval)
    ensures r.Disabled? <==> last.None?
    ensures r.Every? ==> r.ms == StatusPanel.RefetchIntervalWithTraining
  {
    var someInFlight: Option<bool> :=
      match last
      case None => None
      case Some(js) => Some(exists k | 0 <= k < |js| :: InFlight(js[k].status));
    if someInFlight.None? then StatusPanel.Disabled else StatusPanel.Every(1000)
  }

  /** Polling does not stop when every job has finished. */
  lemma FinishedJobsStillPoll(jobs: seq<Job>)
    requires forall k :: 0 <= k < |jobs| ==> !InFlight(jobs[k].status)
    ensures RefetchInterval(Some(jobs)) == StatusPanel.Every(1000)
  {
  }

  /** What `DatasetStatusPanel` renders. */
  datatype Panel =
    | NotEnoughImages(missing: int)
    | ReadyToTrainWithProgress

  /** `DatasetStatusPanel`: the training controls once the train request has
      answered or enough images exist; the number still missing otherwise. */
  function DatasetStatusPanel(trainAnswered: bool, mediaItemsCount: nat, required: nat): (r: Panel)
    requires required > 0
    ensures r.ReadyToTrainWithProgress? <==> trainAnswered || mediaItemsCount >= required
    ensures r.NotEnoughImages? ==> 0 < r.missing <= required && r.missing + mediaItemsCount == required
  {
    if trainAnswered then ReadyToTrainWithProgress
    else if mediaItemsCount >= required then ReadyToTrainWithProgress
    else NotEnoughImages(required - mediaItemsCount)
  }

  /** Once the train request has answered, the controls stay even if images
      are deleted. */
  lemma AnsweredRequestKeepsControls(mediaItemsCount: nat, required: nat)
    requires required > 0
    ensures DatasetStatusPanel(true, mediaItemsCount, required) == ReadyToTrainWithProgress
    ensures mediaItemsCount < required ==>
      DatasetStatusPanel(false, mediaItemsCount, required) == NotEnoughImages(required - mediaItemsCount)
  {
  }

  /** A picker entry. */
  datatype AvailableModel = AvailableModel(id: string, name: string)

  /** The names the picker offers (the second list in `useAvailableModels`
      is after a `return` and never used). */
  const ModelNames: seq<string> := [
    "ai_vad", "cfa", "cflow", "csflow", "dfkde", "dfm", "draem", "efficient_ad",
    "fastflow", "fre", "ganomaly", "padim", "patchcore", "reverse_distillation",
    "stfpm", "uflow", "vlm_ad", "winclip"]

  /** `useAvailableModels`: each name becomes an entry whose id is the name. */
  function AvailableModels(): (r: seq<AvailableModel>)
    ensures |r| == |ModelNames| == 18
    ensures forall k :: 0 <= k < |r| ==> r[k].id == r[k].name == ModelNames[k]
  {
    seq(|ModelNames|, k requires 0 <= k < |ModelNames| => AvailableModel(ModelNames[k], ModelNames[k]))
  }

  /** No two picker entries share an id, so keys are unique. */
  lemma AvailableModelIdsDistinct()
    ensures forall i, j :: 0 <= i < j < |AvailableModels()| ==> AvailableModels()[i].id != AvailableModels()[j].id
  {
  }

  /** `ReadyToTrain`'s local state: the selected model name. */
  datatype ReadyToTrain = ReadyToTrain(selectedModel: string)

  /** The first available model is selected initially. */
  function InitialReadyToTrain(): (r: ReadyToTrain)
    ensures r.selectedModel == AvailableModels()[0].id == "ai_vad"
  {
    ReadyToTrain(AvailableModels()[0].id)
  }

  /** `onSelectionChange`: a null key leaves the selection as it is; any
      other key is selected as given. */
  function OnSelectionChange(st: ReadyToTrain, key: Option<string>): (r: ReadyToTrain)
    ensures key.None? ==> r == st
    ensures key.Some? ==> r.selectedModel == key.value
  {
    match key
    case None => st
    case Some(k) => ReadyToTrain(k)
  }

  /** The body of `POST /api/jobs:train`. */
  datatype TrainBody = TrainBody(projectId: string, modelName: string)

  /** `startTraining`: the current project and the current selection. */
  function StartTraining(st: ReadyToTrain, projectId: string): (r: TrainBody)
    ensures r.projectId == projectId && r.modelName == st.selectedModel
  {
    TrainBody(projectId, st.selectedModel)
  }

  /** Without touching the picker, training starts with `ai_vad`; after
      picking a key, with that key; a null key in between changes nothing. */
  lemma StartTrainingUsesPick(projectId: string, key: string)
    ensures StartTraining(InitialReadyToTrain(), projectId) == TrainBody(projectId, "ai_vad")
    ensures StartTraining(OnSelectionChange(InitialReadyToTrain(), Some(key)), projectId) == TrainBody(projectId, key)
    ensures StartTraining(OnSelectionChange(OnSelectionChange(InitialReadyToTrain(), Some(key)), None), projectId)
      == TrainBody(projectId, key)
  {
  }

  /** `JobProgress`: the alert for one job, headed by the model name from the
      job's payload. There is no job-logs button here. */
  function JobProgress(job: Job): (r: StatusPanel.Alert)
    ensures r.body == job.message && !r.showsLogs
    ensures r.variant == StatusPanel.Info <==> job.status in {Completed, Pending, Running}
    ensures r.variant == StatusPanel.Negative <==> job.status in {Failed, Canceled}
    ensures r.bar.Value? <==> job.status == Running
    ensures r.bar.Indeterminate? <==> job.status in {Completed, Pending}
    ensures job.status == Running ==> r.bar.progress == job.progress
    ensures StartsWith(r.heading, job.modelName + " - ")
    ensures job.status == Completed ==> r.heading == job.modelName + " - Finished"
    ensures job.status == Pending ==> r.heading == job.modelName + " - Training will start soon"
    ensures job.status == Running ==> r.heading == job.modelName + " - Training in progress"
    ensures job.status == Failed ==> r.heading == job.modelName + " - Training failed"
    ensures job.status == Canceled ==> r.heading == job.modelName + " - Training canceled"
  {
    var name := job.modelName;
    match job.status
    case Completed => StatusPanel.Alert(StatusPanel.Info, name + " - Finished", job.message, StatusPanel.Indeterminate, false)
    case Pending => StatusPanel.Alert(StatusPanel.Info, name + " - Training will start soon", job.message, StatusPanel.Indeterminate, false)
    case Running => StatusPanel.Alert(StatusPanel.Info, name + " - Training in progress", job.message, StatusPanel.Value(job.progress), false)
    case Failed => StatusPanel.Alert(StatusPanel.Negative, name + " - Training failed", job.message, StatusPanel.NoBar, false)
    case Canceled => StatusPanel.Alert(StatusPanel.Negative, name + " - Training canceled", job.message, StatusPanel.NoBar, false)
  }

  /** Unlike the current panel, a completed job is reported as `Finished`
      in an info alert, not a positive one. */
  lemma CompletedIsInfoHere(job: Job)
    requires job.status == Completed
    ensures JobProgress(job).variant == StatusPanel.Info
    ensures JobProgress(job).heading == job.modelName + " - Finished"
    ensures StatusPanel.TrainingAlert(Some(job)).value.variant == StatusPanel.Positive
    ensures StatusPanel.TrainingAlert(Some(job)).value.heading == "Training completed" + " - " + job.modelName
  {
  }

  /** `TrainingInProgress`: one alert per job of the snapshot (not filtered
      by project), in order; nothing before the first snapshot. */
  function TrainingInProgress(data: Option<seq<Job>>): (r: seq<StatusPanel.Alert>)
    ensures data.None? ==> r == []
    ensures data.Some? ==> |r| == |data.value| && forall k :: 0 <= k < |r| ==> r[k] == JobProgress(data.value[k])
  {
    match data
    case None => []
    case Some(js) => seq(|js|, k requires 0 <= k < |js| => JobProgress(js[k]))
  }
}

=== FILE: models_panel.dfy ===
/** The models panel of the inspect page: the project's jobs fed to the
    models table, and the train button's disabled flag. */
module ModelsPanel {
  import opened Jobs

  /** `useJobs`: the snapshot's jobs of the current project, in order. */
  function UseJobs(snapshot: seq<Job>, projectId: string): (r: seq<Job>)
    ensures forall k :: 0 <= k < |r| ==> r[k].projectId == projectId
    ensures forall j :: j in snapshot && j.projectId == projectId ==> j in r
    ensures forall j :: j in r ==> j in snapshot
  {
    ForProject(snapshot, projectId)
  }

  /** `useJobs` keeps the snapshot's order: the jobs of a concatenation are
      those of each part, one after the other. */
  lemma UseJobsKeepsOrder(a: seq<Job>, b: seq<Job>, projectId: string)
    ensures UseJobs(a + b, projectId) == UseJobs(a, projectId) + UseJobs(b, projectId)
  {
    ForProjectAppend(a, b, projectId);
  }

  /** The flag computed for the train button. */
  function TrainButtonDisabledFlag(mediaCount: nat, required: nat): (b: bool)
    requires required > 0
    ensures b <==> mediaCount < required
    ensures mediaCount == 0 ==> b
  {
    mediaCount < required
  }

  /** The train button as rendered: it declares no properties, so the flag
      passed to it is dropped and the button stays enabled. */
  datatype ButtonState = Enabled | Disabled

  function TrainModelButton(isDisabled: bool): (r: ButtonState)
    ensures r == Enabled
  {
    Enabled
  }

  /** Whatever the media count, the rendered train button is enabled. */
  lemma TrainButtonAlwaysEnabled(mediaCount: nat, required: nat)
    requires required > 0
    ensures TrainButtonDisabledFlag(mediaCount, required) == (mediaCount < required)
    ensures TrainModelButton(TrainButtonDisabledFlag(mediaCount, required)) == Enabled
  {
  }
}

=== FILE: models_view.dfy ===
/** The models table of the inspect page: one row per trained model and one
    per job that has not completed, the row selection feeding the inference
    session, and the empty-state message. Date formatting is the opaque
    `formatDate`. */
module ModelsView {
  import opened Wrappers
  import J = Jobs
  import Inference

  /** A trained model as listed by `/api/projects/{project_id}/models`. */
  datatype TrainedModel = TrainedModel(id: string, name: string, trainJobId: Option<string>)

  datatype RowStatus = Training | Completed | Failed

  /** Whole seconds, or JavaScript's `Infinity`. */
  datatype Duration = Seconds(n: int) | Infinite

  /** `ModelData`: one table row. */
  datatype Row = Row(
    id: string,
    name: string,
    timestamp: string,
    duration: Duration,
    status: RowStatus,
    architecture: string,
    progress: real,
    job: Option<J.Job>)

  /** The fixed timestamp shown on job rows. */
  const JobRowTimestamp := "01 Oct 2025, 11:07 AM"

  /** `jobs.find((job) => job.id === model.train_job_id)`. */
  function FindTrainJob(jobs: seq<J.Job>, trainJobId: Option<string>): (r: Option<J.Job>)
    ensures r.Some? ==> r.value in jobs && trainJobId == Some(r.value.id)
    ensures r.None? ==> forall k :: 0 <= k < |jobs| ==> trainJobId != Some(jobs[k].id)
    ensures r.Some? ==> exists k :: 0 <= k < |jobs| && jobs[k] == r.value && forall i :: 0 <= i < k ==> trainJobId != Some(jobs[i].id)
    decreases |jobs|
  {
    if |jobs| == 0 then None
    else if trainJobId == Some(jobs[0].id) then Some(jobs[0])
    else
      assert forall k :: 1 <= k < |jobs| ==> jobs[k] == jobs[1..][k - 1];
      FindTrainJob(jobs[1..], trainJobId)
  }

  /** `Math.floor(diffMs / 1000)`: whole seconds, rounded towards negative
      infinity. */
  function WholeSeconds(diffMs: int): (s: int)
    ensures s * 1000 <= diffMs < (s + 1) * 1000
  {
    diffMs / 1000
  }

  /** The row of a trained model: completed, full progress, named and
      labelled by the model's name, with its training job if listed; the
      duration is the job's run time in whole seconds, rounded down, and 0
      without a job. */
  function ModelRow(m: TrainedModel, jobs: seq<J.Job>, formatDate: int -> string): (r: Row)
    ensures r.id == m.id && r.name == m.name && r.architecture == m.name
    ensures r.status == Completed && r.progress == 1.0
    ensures r.job == FindTrainJob(jobs, m.trainJobId)
    ensures r.duration.Seconds?
    ensures r.job.None? ==> r.duration == Seconds(0) && r.timestamp == ""
    ensures r.job.Some? ==> r.duration == Seconds(WholeSeconds(r.job.value.endTime - r.job.value.startTime))
    ensures r.job.Some? ==> r.timestamp == formatDate(r.job.value.startTime)
  {
    var job := FindTrainJob(jobs, m.trainJobId);
    match job
    case None => Row(m.id, m.name, "", Seconds(0), Completed, m.name, 1.0, None)
    case Some(j) =>
      var diffMs := j.endTime - j.startTime;
      Row(m.id, m.name, formatDate(j.startTime), Seconds(WholeSeconds(diffMs)), Completed, m.name, 1.0, job)
  }

  /** The row of a job that has not completed: pending and running jobs are
      shown as training, every other status as failed. */
  function JobRow(j: J.Job): (r: Row)
    ensures r.id == j.id && r.name == j.modelName && r.architecture == j.modelName
    ensures r.status == Training <==> J.InFlight(j.status)
    ensures r.status != Completed
    ensures r.duration == Infinite && r.job == Some(j)
  {
    var status := if j.status == J.Pending then Training else if j.status == J.Running then Training else Failed;
    Row(j.id, j.modelName, JobRowTimestamp, Infinite, status, j.modelName, 1.0, Some(j))
  }

  /** The jobs that have not completed, in order. */
  function NonCompleted(jobs: seq<J.Job>): (r: seq<J.Job>)
    ensures |r| <= |jobs|
    ensures forall k :: 0 <= k < |r| ==> r[k].status != J.Completed && r[k] in jobs
    ensures forall j :: j in jobs && j.status != J.Completed ==> j in r
    decreases |jobs|
  {
    if |jobs| == 0 then []
    else
      var rest := NonCompleted(jobs[1..]);
      assert forall j :: j in jobs <==> j == jobs[0] || j in jobs[1..];
      if jobs[0].status != J.Completed then [jobs[0]] + rest else rest
  }

  function ModelRows(models: seq<TrainedModel>, jobs: seq<J.Job>, formatDate: int -> string): (r: seq<Row>)
    ensures |r| == |models|
    ensures forall k :: 0 <= k < |r| ==> r[k] == ModelRow(models[k], jobs, formatDate)
  {
    seq(|models|, k requires 0 <= k < |models| => ModelRow(models[k], jobs, formatDate))
  }

  function JobRows(jobs: seq<J.Job>): (r: seq<Row>)
    ensures |r| == |NonCompleted(jobs)|
    ensures forall k :: 0 <= k < |r| ==> r[k] == JobRow(NonCompleted(jobs)[k])
  {
    var pending := NonCompleted(jobs);
    seq(|pending|, k requires 0 <= k < |pending| => JobRow(pending[k]))
  }

  /** The table body: all job rows, then all model rows. */
  function TableRows(jobs: seq<J.Job>, models: seq<TrainedModel>, formatDate: int -> string): (r: seq<Row>)
    ensures |r| == |NonCompleted(jobs)| + |models|
    ensures r[..|NonCompleted(jobs)|] == JobRows(jobs)
    ensures r[|NonCompleted(jobs)|..] == ModelRows(models, jobs, formatDate)
  {
    var a, b := JobRows(jobs), ModelRows(models, jobs, formatDate);
    assert (a + b)[..|a|] == a && (a + b)[|a|..] == b;
    a + b
  }

  /** Rows of jobs that have not completed come first, in job order. */
  lemma JobRowsFirst(jobs: seq<J.Job>, models: seq<TrainedModel>, formatDate: int -> string)
    ensures var r := TableRows(jobs, models, formatDate);
      forall k :: 0 <= k < |NonCompleted(jobs)| ==> r[k] == JobRow(NonCompleted(jobs)[k]) && r[k].status != Completed
  {
    var r, n := TableRows(jobs, models, formatDate), |NonCompleted(jobs)|;
    forall k | 0 <= k < n
      ensures r[k] == JobRow(NonCompleted(jobs)[k]) && r[k].status != Completed
    {
      assert r[k] == r[..n][k];
    }
  }

  /** The rows of trained models follow, in model order. */
  lemma ModelRowsAfter(jobs: seq<J.Job>, models: seq<TrainedModel>, formatDate: int -> string, k: nat)
    requires k < |models|
    ensures var r := TableRows(jobs, models, formatDate);
      |NonCompleted(jobs)| + k < |r|
      && r[|NonCompleted(jobs)| + k] == ModelRow(models[k], jobs, formatDate)
      && r[|NonCompleted(jobs)| + k].status == Completed
  {
    var r, n := TableRows(jobs, models, formatDate), |NonCompleted(jobs)|;
    var b := ModelRows(models, jobs, formatDate);
    assert r[n..] == b;
    assert r[n + k] == r[n..][k];
    assert b[k] == ModelRow(models[k], jobs, formatDate);
  }

  /** A completed job never gets a row of its own. */
  lemma CompletedJobsHaveNoJobRow(jobs: seq<J.Job>, models: seq<TrainedModel>, formatDate: int -> string, k: nat)
    requires k < |TableRows(jobs, models, formatDate)|
    requires TableRows(jobs, models, formatDate)[k].job.Some?
    requires TableRows(jobs, models, formatDate)[k].job.value.status == J.Completed
    ensures k >= |NonCompleted(jobs)|
  {
    JobRowsFirst(jobs, models, formatDate);
  }

  /** The table's selection change: every key (`all`) or a set of keys,
      listed in iteration order. */
  datatype Selection = All | Keys(keys: seq<string>)

  /** `onSelectionChange`: `None` when the handler returns early; otherwise
      the id passed on to the session, which is the first key when it is a
      trained model's id and absent otherwise. */
  function OnSelectionChange(sel: Selection, modelRows: seq<Row>): (r: Option<Option<string>>)
    ensures r.None? <==> sel.All?
    ensures r.Some? && r.value.Some? ==>
      |sel.keys| > 0 && r.value.value == sel.keys[0]
      && exists k :: 0 <= k < |modelRows| && modelRows[k].id == sel.keys[0]
    ensures r.Some? && r.value.None? ==>
      |sel.keys| == 0 || forall k :: 0 <= k < |modelRows| ==> modelRows[k].id != sel.keys[0]
  {
    match sel
    case All => None
    case Keys(ks) =>
      if |ks| == 0 then Some(None)
      else if exists k | 0 <= k < |modelRows| :: modelRows[k].id == ks[0] then Some(Some(ks[0]))
      else Some(None)
  }

  /** Selecting the row of a job (an id no trained model has) clears the
      session's model and starts no inference. */
  lemma SelectingJobRowClearsModel(s: Inference.Session, media: Option<Inference.MediaItem>, jobId: string, modelRows: seq<Row>)
    requires forall k :: 0 <= k < |modelRows| ==> modelRows[k].id != jobId
    ensures OnSelectionChange(Keys([jobId]), modelRows) == Some(None)
    ensures Inference.SelectModel(s, media, None) == (s.(selectedModelId := None), [])
  {
  }

  /** `selectedKeys`: empty without a selection, the selected id otherwise. */
  function SelectedKeys(selectedModelId: Option<string>): (r: set<string>)
    ensures |r| <= 1
    ensures forall id :: id in r <==> selectedModelId == Some(id)
  {
    match selectedModelId
    case None => {}
    case Some(id) => {id}
  }

  /** The "No models in training" message: no project jobs and no models. */
  predicate ShowsEmptyState(jobs: seq<J.Job>, models: seq<TrainedModel>) {
    |jobs| == 0 && |models| == 0
  }

  /** The message implies an empty table, but an empty table does not imply
      the message: completed jobs produce no rows yet suppress it. */
  lemma EmptyStateAndEmptyTable(jobs: seq<J.Job>, models: seq<TrainedModel>, formatDate: int -> string, done: J.Job)
    requires done.status == J.Completed
    ensures ShowsEmptyState(jobs, models) ==> |TableRows(jobs, models, formatDate)| == 0
    ensures |TableRows([done], [], formatDate)| == 0 && !ShowsEmptyState([done], [])
  {
  }
}

=== FILE: paths.dfy ===
/** The image URLs the UI builds, `/api/projects/{project_id}/images/{id}/{variant}`,
    and a parser that recovers their parts. */
module Paths {
  import opened Wrappers
  import opened Strings

  datatype ImageVariant = Thumbnail | Full

  function VariantName(v: ImageVariant): string {
    match v
    case Thumbnail => "thumbnail"
    case Full => "full"
  }

  /** The path segments of an image URL, the leading empty one included. */
  function Segments(projectId: string, imageId: string, v: ImageVariant): seq<string> {
    ["", "api", "projects", projectId, "images", imageId, VariantName(v)]
  }

  /** `/api/projects/${projectId}/images/${imageId}/${variant}`: the project
      scope first, the variant last, and nothing but separators and the two
      ids around the fixed words. */
  function ImagePath(projectId: string, imageId: string, v: ImageVariant): (r: string)
    ensures StartsWith(r, "/api/projects/" + projectId + "/images/")
    ensures EndsWith(r, imageId + "/" + VariantName(v))
    ensures |r| == |projectId| + |imageId| + |VariantName(v)| + 23
  {
    var pre := "/api/projects/" + projectId + "/images/";
    var suf := imageId + "/" + VariantName(v);
    var r := pre + suf;
    assert r[..|pre|] == pre;
    assert r[|r| - |suf|..] == suf;
    assert r == "/api/projects/" + projectId + "/images/" + imageId + "/" + VariantName(v);
    r
  }

  lemma JoinOnCons(c: char, parts: seq<string>)
    requires |parts| >= 2
    ensures JoinOn(c, parts) == parts[0] + [c] + JoinOn(c, parts[1..])
  {
  }

  /** The URL is the segments joined by `/`. */
  lemma ImagePathSegments(projectId: string, imageId: string, v: ImageVariant)
    ensures ImagePath(projectId, imageId, v) == JoinOn('/', Segments(projectId, imageId, v))
  {
    var segs := Segments(projectId, imageId, v);
    var j6 := VariantName(v);
    assert JoinOn('/', segs[6..]) == j6;
    var j5 := imageId + "/" + j6;
    JoinOnCons('/', segs[5..]);
    assert segs[5..][1..] == segs[6..];
    assert JoinOn('/', segs[5..]) == j5;
    var j4 := "images" + "/" + j5;
    JoinOnCons('/', segs[4..]);
    assert segs[4..][1..] == segs[5..];
    assert JoinOn('/', segs[4..]) == j4;
    var j3 := projectId + "/" + j4;
    JoinOnCons('/', segs[3..]);
    assert segs[3..][1..] == segs[4..];
    assert JoinOn('/', segs[3..]) == j3;
    var j2 := "projects" + "/" + j3;
    JoinOnCons('/', segs[2..]);
    assert segs[2..][1..] == segs[3..];
    assert JoinOn('/', segs[2..]) == j2;
    var j1 := "api" + "/" + j2;
    JoinOnCons('/', segs[1..]);
    assert segs[1..][1..] == segs[2..];
    assert JoinOn('/', segs[1..]) == j1;
    JoinOnCons('/', segs);
    assert JoinOn('/', segs) == "" + "/" + j1;
    ImagePathSpelled(projectId, imageId, v);
  }

  /** The nested joins of `ImagePathSegments`, flattened. */
  lemma ImagePathSpelled(projectId: string, imageId: string, v: ImageVariant)
    ensures ImagePath(projectId, imageId, v)
      == "" + "/" + ("api" + "/" + ("projects" + "/" + (projectId + "/" + ("images" + "/" + (imageId + "/" + VariantName(v))))))
  {
  }

  /** Recovers project id, image id and variant from an image URL. */
  function ParseImagePath(path: string): Option<(string, string, ImageVariant)> {
    var s := Split(path, '/');
    if |s| == 7 && s[0] == "" && s[1] == "api" && s[2] == "projects" && s[4] == "images" then
      if s[6] == "full" then Some((s[3], s[5], Full))
      else if s[6] == "thumbnail" then Some((s[3], s[5], Thumbnail))
      else None
    else None
  }

  /** An image URL names its project, image and variant: parsing recovers them
      whenever the two ids contain no `/`. */
  lemma ParseImagePathRoundTrip(projectId: string, imageId: string, v: ImageVariant)
    requires '/' !in projectId && '/' !in imageId
    ensures ParseImagePath(ImagePath(projectId, imageId, v)) == Some((projectId, imageId, v))
  {
    var segs := Segments(projectId, imageId, v);
    ImagePathSegments(projectId, imageId, v);
    SplitJoinOn(segs, '/');
  }

  /** Distinct images (or variants) get distinct URLs. */
  lemma ImagePathInjective(p1: string, i1: string, v1: ImageVariant, p2: string, i2: string, v2: ImageVariant)
    requires '/' !in p1 && '/' !in i1 && '/' !in p2 && '/' !in i2
    requires ImagePath(p1, i1, v1) == ImagePath(p2, i2, v2)
    ensures p1 == p2 && i1 == i2 && v1 == v2
  {
    ParseImagePathRoundTrip(p1, i1, v1);
    ParseImagePathRoundTrip(p2, i2, v2);
  }
}

=== FILE: sse.dfy ===
/** The log stream reader of the dataset status panel (`fetchSSE`): a
    Server-Sent-Events channel whose frames are decoded as JSON and whose
    truthy `text` fields are yielded as log lines. Delivery is one frame per
    loop step; JSON decoding is the opaque partial function `parse`. */
module Sse {
  import opened Wrappers
  import opened Strings

  /** A decoded JSON value. */
  datatype Json =
    | JNull
    | JBool(b: bool)
    | JNumber(n: real)
    | JString(s: string)
    | JArray(items: seq<Json>)
    | JObject(members: seq<(string, Json)>)

  /** JavaScript truthiness of a decoded value. */
  predicate Truthy(v: Json) {
    match v
    case JNull => false
    case JBool(b) => b
    case JNumber(n) => n != 0.0
    case JString(s) => s != ""
    case JArray(_) => true
    case JObject(_) => true
  }

  /** A member of a decoded object; of duplicate keys the last one wins, as
      with `JSON.parse`. */
  function Member(members: seq<(string, Json)>, key: string): Option<Json>
    decreases |members|
  {
    if |members| == 0 then None
    else if members[|members| - 1].0 == key then Some(members[|members| - 1].1)
    else Member(members[..|members| - 1], key)
  }

  /** What the channel delivers: a message frame or a transport error. */
  datatype Event = Message(data: string) | ChannelError

  /** How the sequence ended: on the end-of-stream signal, on a channel
      error, or not yet (the reader still awaits the next frame). */
  datatype Outcome = Done | Failed | Waiting

  datatype Stream = Stream(lines: seq<Json>, outcome: Outcome)

  /** Frames that end the stream: exactly `DONE`, or any containing `COMPLETED`. */
  predicate Terminates(data: string) {
    data == "DONE" || Contains(data, "COMPLETED")
  }

  predicate Stops(e: Event) {
    e.ChannelError? || Terminates(e.data)
  }

  /** A frame that decodes to an object with a truthy `text` member. */
  predicate HasText(data: string, parse: string -> Option<Json>) {
    var v := parse(data);
    v.Some? && v.value.JObject? && Member(v.value.members, "text").Some?
    && Truthy(Member(v.value.members, "text").value)
  }

  /** The lines one non-terminal frame yields: none when decoding fails (the
      error is caught), none for `null` (reading a member of it throws inside
      the same try), none for other non-objects and for a missing or falsy
      `text`, otherwise the `text` value. */
  function LineOf(data: string, parse: string -> Option<Json>): (r: seq<Json>)
    ensures |r| <= 1
    ensures |r| == 1 <==> HasText(data, parse)
    ensures |r| == 1 ==> Some(r[0]) == Member(parse(data).value.members, "text") && Truthy(r[0])
  {
    match parse(data)
    case None => []
    case Some(JObject(ms)) =>
      (match Member(ms, "text")
       case Some(t) => if Truthy(t) then [t] else []
       case None => [])
    case Some(_) => []
  }

  /** The reader consuming `events` in arrival order. */
  function Run(events: seq<Event>, parse: string -> Option<Json>): (r: Stream)
    ensures |r.lines| <= |events|
    ensures forall k :: 0 <= k < |r.lines| ==> Truthy(r.lines[k])
    ensures r.outcome == Failed ==> exists k :: 0 <= k < |events| && events[k].ChannelError?
    decreases |events|
  {
    if |events| == 0 then Stream([], Waiting)
    else match events[0]
      case ChannelError => Stream([], Failed)
      case Message(d) =>
        if Terminates(d) then Stream([], Done)
        else
          var rest := Run(events[1..], parse);
          Stream(LineOf(d, parse) + rest.lines, rest.outcome)
  }

  /** The reader is still waiting exactly when no frame so far stopped it;
      every yielded line is truthy, and each frame yields at most one. */
  lemma {:induction false} RunFacts(events: seq<Event>, parse: string -> Option<Json>)
    ensures Run(events, parse).outcome == Waiting <==> forall k :: 0 <= k < |events| ==> !Stops(events[k])
    ensures forall k :: 0 <= k < |Run(events, parse).lines| ==> Truthy(Run(events, parse).lines[k])
    ensures |Run(events, parse).lines| <= |events|
    decreases |events|
  {
    if |events| > 0 && events[0].Message? && !Terminates(events[0].data) {
      RunFacts(events[1..], parse);
      assert forall k :: 1 <= k < |events| ==> events[k] == events[1..][k - 1];
    }
  }

  /** Reading `a` then `b`: once the stream has ended, later frames change
      nothing; otherwise the lines of `b` follow those of `a`. */
  lemma {:induction false} RunAppend(a: seq<Event>, b: seq<Event>, parse: string -> Option<Json>)
    ensures Run(a + b, parse) ==
      (if Run(a, parse).outcome == Waiting
       then Stream(Run(a, parse).lines + Run(b, parse).lines, Run(b, parse).outcome)
       else Run(a, parse))
    decreases |a|
  {
    if |a| == 0 {
      assert a + b == b;
    } else {
      var ab := a + b;
      assert ab[0] == a[0];
      assert ab[1..] == a[1..] + b;
      match a[0]
      case ChannelError =>
        assert Run(ab, parse) == Stream([], Failed) == Run(a, parse);
      case Message(d) =>
        if Terminates(d) {
          assert Run(ab, parse) == Stream([], Done) == Run(a, parse);
        } else {
          RunAppend(a[1..], b, parse);
          var ra := Run(a[1..], parse);
          assert Run(a, parse) == Stream(LineOf(d, parse) + ra.lines, ra.outcome);
          assert Run(ab, parse) == Stream(LineOf(d, parse) + Run(a[1..] + b, parse).lines, Run(a[1..] + b, parse).outcome);
          if ra.outcome == Waiting {
            assert LineOf(d, parse) + (ra.lines + Run(b, parse).lines) == (LineOf(d, parse) + ra.lines) + Run(b, parse).lines;
          }
        }
    }
  }

  /** A frame that fails to decode is skipped and reading continues. */
  lemma MalformedFrameSkipped(data: string, rest: seq<Event>, parse: string -> Option<Json>)
    requires !Terminates(data) && parse(data).None?
    ensures Run([Message(data)] + rest, parse) == Run(rest, parse)
  {
  }

  /** A terminating frame or a channel error ends the sequence, failed for
      an error: neither it nor anything after it is yielded. */
  lemma StopIgnoresLaterFrames(before: seq<Event>, stop: Event, after: seq<Event>, parse: string -> Option<Json>)
    requires Stops(stop)
    requires Run(before, parse).outcome == Waiting
    ensures Run(before + [stop] + after, parse) ==
      Stream(Run(before, parse).lines, if stop.ChannelError? then Failed else Done)
  {
    RunAppend(before + [stop], after, parse);
    RunAppend(before, [stop], parse);
  }

  /** The stream is incremental: reading a prefix of the frames yields a
      prefix of the lines. */
  lemma PrefixYieldsPrefix(events: seq<Event>, n: nat, parse: string -> Option<Json>)
    requires n <= |events|
    ensures Run(events[..n], parse).lines <= Run(events, parse).lines
  {
    assert events == events[..n] + events[n..];
    RunAppend(events[..n], events[n..], parse);
  }

  /** The yielded lines are the truthy `text` members of successfully decoded
      frames, in arrival order: one more non-terminal frame adds exactly its
      own line, if any. */
  lemma OneMoreFrame(before: seq<Event>, data: string, parse: string -> Option<Json>)
    requires Run(before, parse).outcome == Waiting
    requires !Terminates(data)
    ensures Run(before + [Message(data)], parse) ==
      Stream(Run(before, parse).lines + LineOf(data, parse), Waiting)
  {
    RunAppend(before, [Message(data)], parse);
    assert [Message(data)][1..] == [];
  }

  /** Frames `{"text":"x"}`, `not json`, `{"text":"y"}`, `DONE` yield the
      lines `x`, `y` and close the stream. */
  lemma ExampleSession(parse: string -> Option<Json>)
    requires parse("{\"text\":\"x\"}") == Some(JObject([("text", JString("x"))]))
    requires parse("not json") == None
    requires parse("{\"text\":\"y\"}") == Some(JObject([("text", JString("y"))]))
    ensures Run([Message("{\"text\":\"x\"}"), Message("not json"), Message("{\"text\":\"y\"}"), Message("DONE")], parse)
      == Stream([JString("x"), JString("y")], Done)
  {
    var fx, fn, fy := "{\"text\":\"x\"}", "not json", "{\"text\":\"y\"}";
    NotContainsWithoutFirstChar(fx, "COMPLETED");
    NotContainsWithoutFirstChar(fn, "COMPLETED");
    NotContainsWithoutFirstChar(fy, "COMPLETED");
    assert !Terminates(fx) && !Terminates(fn) && !Terminates(fy);
    assert Member([("text", JString("x"))], "text") == Some(JString("x"));
    assert Member([("text", JString("y"))], "text") == Some(JString("y"));
    assert LineOf(fx, parse) == [JString("x")];
    assert LineOf(fn, parse) == [];
    assert LineOf(fy, parse) == [JString("y")];
    var e0: seq<Event> := [];
    assert Run(e0, parse) == Stream([], Waiting);
    OneMoreFrame(e0, fx, parse);
    var e1 := e0 + [Message(fx)];
    assert Run(e1, parse) == Stream([JString("x")], Waiting);
    OneMoreFrame(e1, fn, parse);
    var e2 := e1 + [Message(fn)];
    assert Run(e2, parse) == Stream([JString("x")], Waiting);
    OneMoreFrame(e2, fy, parse);
    var e3 := e2 + [Message(fy)];
    assert Run(e3, parse) == Stream([JString("x"), JString("y")], Waiting);
    StopIgnoresLaterFrames(e3, Message("DONE"), [], parse);
    assert e3 + [Message("DONE")] + [] == [Message(fx), Message(fn), Message(fy), Message("DONE")];
  }
}

=== FILE: status_panel.dfy ===
/** The dataset status panel of the inspect page: the adaptive polling of
    `/api/jobs`, the per-project job list, the detector that invalidates the
    cached trained-model list, the per-job status alert and the choice
    between the "images required" alert and the job list. */
module StatusPanel {
  import opened Wrappers
  import opened Strings
  import opened Jobs

  /** A refetch policy: no automatic refetch, or every `ms` milliseconds. */
  datatype Interval = Disabled | Every(ms: nat)

  const RefetchIntervalWithTraining: nat := 1000

  /** Some job of the project is a training job that is pending or running. */
  predicate HasInFlightTraining(jobs: seq<Job>, projectId: string) {
    exists k :: 0 <= k < |jobs| && jobs[k].projectId == projectId && jobs[k].kind == "training" && InFlight(jobs[k].status)
  }

  function AnyInFlightTraining(jobs: seq<Job>, projectId: string): (b: bool)
    ensures b <==> HasInFlightTraining(jobs, projectId)
    decreases |jobs|
  {
    if |jobs| == 0 then false
    else
      var j := jobs[0];
      assert forall k :: 1 <= k < |jobs| ==> jobs[k] == jobs[1..][k - 1];
      (j.projectId == projectId && j.kind == "training" && InFlight(j.status))
      || AnyInFlightTraining(jobs[1..], projectId)
  }

  /** The refetch interval of the job query, from the last snapshot
      (`None` before the first one). */
  function TrainingRefetchInterval(last: Option<seq<Job>>, projectId: string): (r: Interval)
    ensures r == Every(1000) <==> last.Some? && HasInFlightTraining(last.value, projectId)
    ensures r != Every(1000) ==> r == Disabled
  {
    match last
    case None => Disabled
    case Some(jobs) => if AnyInFlightTraining(jobs, projectId) then Every(RefetchIntervalWithTraining) else Disabled
  }

  /** The jobs the panel lists: those of the current project, in snapshot
      order, or nothing before the first snapshot. */
  function ProjectTrainingJobs(last: Option<seq<Job>>, projectId: string): (r: Option<seq<Job>>)
    ensures r.None? <==> last.None?
    ensures r.Some? ==> forall k :: 0 <= k < |r.value| ==> r.value[k].projectId == projectId && r.value[k] in last.value
    ensures r.Some? ==> forall j :: j in last.value && j.projectId == projectId ==> j in r.value
  {
    match last
    case None => None
    case Some(jobs) => Some(ForProject(jobs, projectId))
  }

  function StatusesOf(jobs: seq<Job>): set<Status> {
    set j | j in jobs :: j.status
  }

  /** `differenceBy(prev, cur, job => job.status)`: the previous jobs whose
      status value occurs nowhere in the current snapshot, in order. */
  function DifferenceByStatus(prev: seq<Job>, cur: seq<Job>): (r: seq<Job>)
    ensures forall j :: j in r <==> j in prev && j.status !in StatusesOf(cur)
    decreases |prev|
  {
    if |prev| == 0 then []
    else
      var rest := DifferenceByStatus(prev[1..], cur);
      assert forall j :: j in prev <==> j == prev[0] || j in prev[1..];
      if prev[0].status in StatusesOf(cur) then rest else [prev[0]] + rest
  }

  /** The detector's memory: the last defined snapshot, initially empty. */
  datatype Detector = Detector(prev: seq<Job>)

  const InitialDetector := Detector([])

  /** The one effect the detector emits: invalidate the project's cached
      trained-model list. */
  datatype Effect = InvalidateModels(projectId: string)

  /** One run of the effect: on a defined snapshot that differs from the
      remembered one, invalidate when some job in the status difference is
      completed; then remember the snapshot. */
  function Observe(d: Detector, snapshot: Option<seq<Job>>, projectId: string): (r: (Detector, seq<Effect>))
    ensures snapshot.None? ==> r == (d, [])
    ensures snapshot.Some? ==> r.0 == Detector(snapshot.value)
    ensures forall k :: 0 <= k < |r.1| ==> r.1[k] == InvalidateModels(projectId)
    ensures |r.1| <= 1
    ensures |r.1| == 1 <==>
      snapshot.Some? && Completed in StatusesOf(d.prev) && Completed !in StatusesOf(snapshot.value)
  {
    match snapshot
    case None => (d, [])
    case Some(jobs) =>
      if d.prev != jobs then
        var diff := DifferenceByStatus(d.prev, jobs);
        var refetch := exists k | 0 <= k < |diff| :: diff[k].status == Completed;
        assert refetch <==> Completed in StatusesOf(d.prev) && Completed !in StatusesOf(jobs) by {
          if Completed in StatusesOf(d.prev) && Completed !in StatusesOf(jobs) {
            var j :| j in d.prev && j.status == Completed;
            assert j in diff;
          }
        }
        (Detector(jobs), if refetch then [InvalidateModels(projectId)] else [])
      else
        (Detector(jobs), [])
  }

  /** Equal consecutive snapshots never invalidate. */
  lemma EqualSnapshotsDoNotInvalidate(d: Detector, projectId: string)
    ensures Observe(d, Some(d.prev), projectId).1 == []
  {
  }

  /** The first snapshot never invalidates. */
  lemma FirstSnapshotDoesNotInvalidate(jobs: seq<Job>, projectId: string)
    ensures Observe(InitialDetector, Some(jobs), projectId).1 == []
  {
  }

  /** A job moving from running to completed does not invalidate: the
      difference is taken by status value, and `running` was the only
      previous status. */
  lemma RunningToCompletedDoesNotInvalidate(a: Job, projectId: string)
    requires a.status == Running
    ensures Observe(Detector([a]), Some([a.(status := Completed)]), projectId).1 == []
  {
  }

  /** A completed job that disappears from the snapshot, with no completed
      job left, does invalidate. */
  lemma CompletedJobPrunedInvalidates(a: Job, b: Job, projectId: string)
    requires a.status == Completed && b.status == Running
    ensures Observe(Detector([a]), Some([b]), projectId).1 == [InvalidateModels(projectId)]
  {
  }

  /** Variants of the design system's alerts and status lights. */
  datatype Variant = Neutral | Info | Positive | Negative

  datatype Bar = NoBar | Indeterminate | Value(progress: real)

  /** A rendered job alert: variant, heading, body text, progress bar and
      whether the job-logs button is shown. */
  datatype Alert = Alert(variant: Variant, heading: string, body: string, bar: Bar, showsLogs: bool)

  /** The heading of a job alert, before the model name. */
  function TrainingTitle(s: Status): string {
    match s
    case Pending => "Training will start soon"
    case Running => "Training in progress"
    case Failed => "Training failed"
    case Canceled => "Training canceled"
    case Completed => "Training completed"
  }

  /** `TrainingInProgress`: the alert for one job, nothing for no job. */
  function TrainingAlert(job: Option<Job>): (r: Option<Alert>)
    ensures r.None? <==> job.None?
    ensures r.Some? ==> r.value.body == job.value.message && r.value.showsLogs == (job.value.id != "")
    ensures r.Some? ==> r.value.variant == (match job.value.status
                                           case Pending => Info
                                           case Running => Info
                                           case Completed => Positive
                                           case Failed => Negative
                                           case Canceled => Negative)
    ensures r.Some? ==> (r.value.bar.Value? <==> job.value.status == Running)
    ensures r.Some? && job.value.status == Running ==> r.value.bar == Value(job.value.progress)
    ensures r.Some? && job.value.status == Pending ==> r.value.bar == Indeterminate
    ensures r.Some? && job.value.status in {Completed, Failed, Canceled} ==> r.value.bar == NoBar
    ensures r.Some? ==> EndsWith(r.value.heading, " - " + job.value.modelName)
    ensures r.Some? && job.value.status == Pending ==> r.value.heading == "Training will start soon" + " - " + job.value.modelName
    ensures r.Some? && job.value.status == Running ==> r.value.heading == "Training in progress" + " - " + job.value.modelName
    ensures r.Some? && job.value.status == Failed ==> r.value.heading == "Training failed" + " - " + job.value.modelName
    ensures r.Some? && job.value.status == Canceled ==> r.value.heading == "Training canceled" + " - " + job.value.modelName
    ensures r.Some? && job.value.status == Completed ==> r.value.heading == "Training completed" + " - " + job.value.modelName
  {
    match job
    case None => None
    case Some(j) =>
      var logs := j.id != "";
      var heading := TrainingTitle(j.status) + " - " + j.modelName;
      assert heading[|heading| - |" - " + j.modelName|..] == " - " + j.modelName;
      Some(match j.status
        case Pending => Alert(Info, heading, j.message, Indeterminate, logs)
        case Running => Alert(Info, heading, j.message, Value(j.progress), logs)
        case Failed => Alert(Negative, heading, j.message, NoBar, logs)
        case Canceled => Alert(Negative, heading, j.message, NoBar, logs)
        case Completed => Alert(Positive, heading, j.message, NoBar, logs))
  }

  /** `TrainingInProgressList`: one alert per project job, in order; nothing
      before the first snapshot or for an empty list. */
  function TrainingList(jobs: Option<seq<Job>>): (r: seq<Alert>)
    ensures jobs.None? ==> r == []
    ensures jobs.Some? ==> |r| == |jobs.value|
    ensures jobs.Some? ==> forall k :: 0 <= k < |r| ==> Some(r[k]) == TrainingAlert(Some(jobs.value[k]))
  {
    match jobs
    case None => []
    case Some(js) => seq(|js|, k requires 0 <= k < |js| => TrainingAlert(Some(js[k])).value)
  }

  /** What the panel shows. */
  datatype Panel = ImagesRequired(missing: int) | JobList

  /** `DatasetStatusPanel`: with fewer than `required` images, the number
      still missing; otherwise the job list. */
  function DatasetStatusPanel(mediaItemsCount: nat, required: nat): (r: Panel)
    requires required > 0
    ensures r.ImagesRequired? <==> mediaItemsCount < required
    ensures r.ImagesRequired? ==> 0 < r.missing <= required && r.missing + mediaItemsCount == required
  {
    if mediaItemsCount < required then ImagesRequired(required - mediaItemsCount) else JobList
  }

  /** A snapshot with one running training job of the project polls every
      second; one with only a completed job stops polling. */
  lemma PollingExamples(a: Job, projectId: string)
    requires a.projectId == projectId && a.kind == "training"
    ensures a.status == Running ==> TrainingRefetchInterval(Some([a]), projectId) == Every(1000)
    ensures a.status == Completed ==> TrainingRefetchInterval(Some([a]), projectId) == Disabled
  {
  }
}

=== FILE: strings.dfy ===
/** String helpers shared by the model: JavaScript's `includes`, ASCII case
    mapping, `Array.prototype.join` and a split on one separator character. */
module Strings {
  import opened Wrappers

  /** JavaScript truthiness of an optional string: present and non-empty. */
  predicate Truthy(s: Option<string>) {
    s.Some? && s.value != ""
  }

  /** `pre` is a prefix of `s`. */
  predicate StartsWith(s: string, pre: string) {
    |pre| <= |s| && s[..|pre|] == pre
  }

  /** `suf` is a suffix of `s`. */
  predicate EndsWith(s: string, suf: string) {
    |suf| <= |s| && s[|s| - |suf|..] == suf
  }

  /** `sub` occurs in `s` starting at position `i`. */
  predicate OccursAt(s: string, sub: string, i: int) {
    0 <= i && i + |sub| <= |s| && s[i..i + |sub|] == sub
  }

  /** `s.includes(sub)`: `sub` occurs as a contiguous block of `s`. */
  predicate Contains(s: string, sub: string) {
    exists i | 0 <= i <= |s| :: OccursAt(s, sub, i)
  }

  /** A string lacking the first character of `sub` cannot contain `sub`. */
  lemma NotContainsWithoutFirstChar(s: string, sub: string)
    requires |sub| > 0 && sub[0] !in s
    ensures !Contains(s, sub)
  {
  }

  function LowerChar(c: char): char {
    if 'A' <= c <= 'Z' then (c as int + 32) as char else c
  }

  function UpperChar(c: char): char {
    if 'a' <= c <= 'z' then (c as int - 32) as char else c
  }

  /** `s.toLowerCase()`, restricted to the ASCII letters. */
  function ToLower(s: string): (r: string)
    ensures |r| == |s|
    ensures forall i :: 0 <= i < |s| ==> r[i] == LowerChar(s[i])
  {
    seq(|s|, i requires 0 <= i < |s| => LowerChar(s[i]))
  }

  lemma ToLowerIdempotent(s: string)
    ensures ToLower(ToLower(s)) == ToLower(s)
  {
  }

  /** `parts.join(sep)`; defined from the back so that appending one part
      extends the joined string. */
  function Join(sep: string, parts: seq<string>): string
    decreases |parts|
  {
    if |parts| == 0 then ""
    else if |parts| == 1 then parts[0]
    else Join(sep, parts[..|parts| - 1]) + sep + parts[|parts| - 1]
  }

  /** Joining with a separator character. */
  function JoinOn(c: char, parts: seq<string>): string
    decreases |parts|
  {
    if |parts| == 0 then ""
    else if |parts| == 1 then parts[0]
    else parts[0] + [c] + JoinOn(c, parts[1..])
  }

  /** `s.split(c)` for a one-character separator. */
  function Split(s: string, c: char): (r: seq<string>)
    ensures |r| >= 1
    decreases |s|
  {
    if |s| == 0 then [""]
    else if s[0] == c then [""] + Split(s[1..], c)
    else
      var rest := Split(s[1..], c);
      [[s[0]] + rest[0]] + rest[1..]
  }

  /** A piece without the separator splits to itself. */
  lemma {:induction false} SplitNoSeparator(p: string, c: char)
    requires c !in p
    ensures Split(p, c) == [p]
    decreases |p|
  {
    if |p| > 0 {
      SplitNoSeparator(p[1..], c);
      assert [p[0]] + p[1..] == p;
    }
  }

  /** Splitting `p + c + rest` yields `p` followed by the pieces of `rest`. */
  lemma {:induction false} SplitAfterPiece(p: string, c: char, rest: string)
    requires c !in p
    ensures Split(p + [c] + rest, c) == [p] + Split(rest, c)
    decreases |p|
  {
    var s := p + [c] + rest;
    if |p| == 0 {
      assert s[0] == c && s[1..] == rest;
    } else {
      assert s[0] == p[0] && s[1..] == p[1..] + [c] + rest;
      SplitAfterPiece(p[1..], c, rest);
      assert [p[0]] + p[1..] == p;
    }
  }

  /** Splitting undoes joining when no piece contains the separator. */
  lemma {:induction false} SplitJoinOn(parts: seq<string>, c: char)
    requires |parts| >= 1
    requires forall k :: 0 <= k < |parts| ==> c !in parts[k]
    ensures Split(JoinOn(c, parts), c) == parts
    decreases |parts|
  {
    if |parts| == 1 {
      SplitNoSeparator(parts[0], c);
    } else {
      SplitJoinOn(parts[1..], c);
      SplitAfterPiece(parts[0], c, JoinOn(c, parts[1..]));
      assert [parts[0]] + parts[1..] == parts;
    }
  }
}

=== FILE: timing.dfy ===
/** The Server-Timing collector of the backend: an ordered log of timing
    entries that timers append to on entry and close, by index, on exit, and
    its rendering as the value of the Server-Timing header field (W3C Server
    Timing, section 3). The clock is an integer tick count; the two-decimal
    number formatting is the opaque `fmt`. */
module Timing {
  import opened Wrappers
  import opened Strings

  /** One log entry; `dur` is `None` while its timer is still running. */
  datatype Entry = Entry(name: string, start: Option<int>, dur: Option<int>)

  datatype Collector = Collector(timings: seq<Entry>)

  /** A timer before entry has neither start nor index. */
  datatype Timer = Timer(name: string, start: Option<int>, index: Option<nat>)

  /** Python's `TypeError` (exit of a timer that was never entered) and
      `IndexError` (an index past the end of the log). */
  datatype TimingError = TypeError | IndexError

  /** A closed entry as it appears in the header. */
  datatype Metric = Metric(name: string, dur: int)

  function NewCollector(): (c: Collector)
    ensures |c.timings| == 0
  {
    Collector([])
  }

  /** `collector.time(name)`: a fresh timer; nothing is logged yet. */
  function Time(name: string): (t: Timer)
    ensures t.name == name && t.start.None? && t.index.None?
  {
    Timer(name, None, None)
  }

  /** `Timer.__enter__` at clock value `now`. */
  function Enter(c: Collector, t: Timer, now: int): (r: (Collector, Timer))
    ensures |r.0.timings| == |c.timings| + 1
    ensures r.0.timings[..|c.timings|] == c.timings
    ensures r.0.timings[|c.timings|] == Entry(t.name, Some(now), None)
    ensures r.1.name == t.name && r.1.start == Some(now) && r.1.index == Some(|c.timings|)
  {
    (Collector(c.timings + [Entry(t.name, Some(now), None)]),
     Timer(t.name, Some(now), Some(|c.timings|)))
  }

  /** `Timer.__exit__` at clock value `now`: writes the elapsed milliseconds
      into the timer's own entry. */
  function Exit(c: Collector, t: Timer, now: int): (r: Result<Collector, TimingError>)
    ensures r.Success? <==> t.start.Some? && t.index.Some? && t.index.value < |c.timings|
    ensures t.start.None? ==> r == Failure(TypeError)
    ensures r.Success? ==>
      && |r.value.timings| == |c.timings|
      && (forall k :: 0 <= k < |c.timings| && k != t.index.value ==> r.value.timings[k] == c.timings[k])
      && r.value.timings[t.index.value].name == c.timings[t.index.value].name
      && r.value.timings[t.index.value].start == c.timings[t.index.value].start
      && r.value.timings[t.index.value].dur == Some((now - t.start.value) * 1000)
  {
    if t.start.None? || t.index.None? then Failure(TypeError)
    else if t.index.value >= |c.timings| then Failure(IndexError)
    else
      var i := t.index.value;
      var d := (now - t.start.value) * 1000;
      Success(Collector(c.timings[i := c.timings[i].(dur := Some(d))]))
  }

  /** `Timer.__aenter__`: delegates to `__enter__`. */
  function AsyncEnter(c: Collector, t: Timer, now: int): (r: (Collector, Timer))
    ensures |r.0.timings| == |c.timings| + 1
    ensures r.0.timings[..|c.timings|] == c.timings
    ensures r.0.timings[|c.timings|] == Entry(t.name, Some(now), None)
    ensures r.1.name == t.name && r.1.start == Some(now) && r.1.index == Some(|c.timings|)
  {
    Enter(c, t, now)
  }

  /** `Timer.__aexit__`: delegates to `__exit__`. */
  function AsyncExit(c: Collector, t: Timer, now: int): (r: Result<Collector, TimingError>)
    ensures r.Success? <==> t.start.Some? && t.index.Some? && t.index.value < |c.timings|
    ensures t.start.None? ==> r == Failure(TypeError)
    ensures r.Success? ==>
      && |r.value.timings| == |c.timings|
      && (forall k :: 0 <= k < |c.timings| && k != t.index.value ==> r.value.timings[k] == c.timings[k])
      && r.value.timings[t.index.value].name == c.timings[t.index.value].name
      && r.value.timings[t.index.value].start == c.timings[t.index.value].start
      && r.value.timings[t.index.value].dur == Some((now - t.start.value) * 1000)
  {
    Exit(c, t, now)
  }

  /** `collector.add(name, duration_ms)`: a closed entry without a start. */
  function Add(c: Collector, name: string, durationMs: int): (r: Collector)
    ensures |r.timings| == |c.timings| + 1
    ensures r.timings[..|c.timings|] == c.timings
    ensures r.timings[|c.timings|] == Entry(name, None, Some(durationMs))
  {
    Collector(c.timings + [Entry(name, None, Some(durationMs))])
  }

  /** The closed entries, in log order. */
  function Metrics(es: seq<Entry>): (r: seq<Metric>)
    ensures |r| <= |es|
    ensures |r| == 0 <==> forall k :: 0 <= k < |es| ==> es[k].dur.None?
    decreases |es|
  {
    if |es| == 0 then []
    else
      var init := Metrics(es[..|es| - 1]);
      var e := es[|es| - 1];
      assert forall k :: 0 <= k < |es| - 1 ==> es[..|es| - 1][k] == es[k];
      if e.dur.Some? then init + [Metric(e.name, e.dur.value)] else init
  }

  /** One header element, `name;dur=X`. */
  function Render(m: Metric, fmt: int -> string): (r: string)
    ensures |r| >= 5
  {
    m.name + ";dur=" + fmt(m.dur)
  }

  function RenderAll(ms: seq<Metric>, fmt: int -> string): (r: seq<string>)
    ensures |r| == |ms|
    ensures forall k :: 0 <= k < |r| ==> |r[k]| >= 5
    decreases |ms|
  {
    if |ms| == 0 then []
    else RenderAll(ms[..|ms| - 1], fmt) + [Render(ms[|ms| - 1], fmt)]
  }

  lemma {:induction false} JoinNonEmpty(sep: string, parts: seq<string>)
    requires |parts| > 0
    requires |parts[|parts| - 1]| > 0
    ensures Join(sep, parts) != ""
  {
  }

  /** The header value: the closed entries, in log order, rendered and joined
      by ", "; it is empty exactly when no entry is closed. */
  function Header(es: seq<Entry>, fmt: int -> string): (r: string)
    ensures r == "" <==> forall k :: 0 <= k < |es| ==> es[k].dur.None?
    ensures r == "" <==> |Metrics(es)| == 0
  {
    var parts := RenderAll(Metrics(es), fmt);
    if |parts| == 0 then ""
    else JoinNonEmpty(", ", parts); Join(", ", parts)
  }

  /** Appending one entry extends the header by that entry's element when it
      is closed and leaves it unchanged when it is open. */
  lemma HeaderSnoc(es: seq<Entry>, e: Entry, fmt: int -> string)
    ensures e.dur.None? ==> Header(es + [e], fmt) == Header(es, fmt)
    ensures e.dur.Some? ==>
      Header(es + [e], fmt) ==
        (if Header(es, fmt) == "" then Render(Metric(e.name, e.dur.value), fmt)
         else Header(es, fmt) + ", " + Render(Metric(e.name, e.dur.value), fmt))
  {
    assert (es + [e])[..|es|] == es;
    if e.dur.Some? {
      var ms := Metrics(es);
      var m := Metric(e.name, e.dur.value);
      assert (ms + [m])[..|ms|] == ms;
      var parts := RenderAll(ms, fmt);
      assert (parts + [Render(m, fmt)])[..|parts|] == parts;
    }
  }

  /** `header_value`, computed by a loop over the log. */
  method HeaderValue(c: Collector, fmt: int -> string) returns (h: string)
    ensures h == Header(c.timings, fmt)
  {
    h := "";
    var i := 0;
    while i < |c.timings|
      invariant 0 <= i <= |c.timings|
      invariant h == Header(c.timings[..i], fmt)
    {
      var e := c.timings[i];
      HeaderSnoc(c.timings[..i], e, fmt);
      assert c.timings[..i + 1] == c.timings[..i] + [e];
      if e.dur.Some? {
        var part := Render(Metric(e.name, e.dur.value), fmt);
        h := if h == "" then part else h + ", " + part;
      }
      i := i + 1;
    }
    assert c.timings[..i] == c.timings;
  }

  /** Entering a timer never changes the header: the new entry is open. */
  lemma EnterKeepsHeader(c: Collector, t: Timer, now: int, fmt: int -> string)
    ensures Header(Enter(c, t, now).0.timings, fmt) == Header(c.timings, fmt)
  {
  }

  /** `add` appends its element at the end of the header. */
  lemma AddExtendsHeader(c: Collector, name: string, d: int, fmt: int -> string)
    ensures Header(Add(c, name, d).timings, fmt) ==
      (if Header(c.timings, fmt) == "" then Render(Metric(name, d), fmt)
       else Header(c.timings, fmt) + ", " + Render(Metric(name, d), fmt))
  {
  }

  /** With a non-decreasing clock, a timer exited after it was entered
      records a non-negative duration in its own entry. */
  lemma ExitDurationNonNegative(c: Collector, name: string, t0: int, t1: int)
    requires t0 <= t1
    ensures var (c1, tm) := Enter(c, Time(name), t0);
      var r := Exit(c1, tm, t1);
      r.Success? && r.value.timings[|c.timings|].dur.Some? && r.value.timings[|c.timings|].dur.value >= 0
  {
  }

  /** `with time(outer): with time(inner): ...` */
  function Nested(c: Collector, outer: string, inner: string, t0: int, t1: int, t2: int, t3: int): Result<Collector, TimingError> {
    var (c1, o) := Enter(c, Time(outer), t0);
    var (c2, i) := Enter(c1, Time(inner), t1);
    match Exit(c2, i, t2)
    case Failure(e) => Failure(e)
    case Success(c3) => Exit(c3, o, t3)
  }

  /** Nested timers keep order of entry: the outer timer, entered first, keeps
      the lower index although it exits last, and both end up closed. */
  lemma NestedTimersKeepEntryOrder(c: Collector, outer: string, inner: string, t0: int, t1: int, t2: int, t3: int)
    ensures Nested(c, outer, inner, t0, t1, t2, t3) == Success(Collector(c.timings + [
      Entry(outer, Some(t0), Some((t3 - t0) * 1000)),
      Entry(inner, Some(t1), Some((t2 - t1) * 1000))]))
  {
    var n := |c.timings|;
    var (c1, o) := Enter(c, Time(outer), t0);
    var (c2, i) := Enter(c1, Time(inner), t1);
    var c3 := Exit(c2, i, t2).value;
    var c4 := Exit(c3, o, t3).value;
    assert c4.timings == c.timings + [
      Entry(outer, Some(t0), Some((t3 - t0) * 1000)),
      Entry(inner, Some(t1), Some((t2 - t1) * 1000))];
  }
}

=== FILE: toolbar.dfy ===
/** The toolbar of the older inspect page: the WebRTC connection light, the
    two "Infer" actions that send one prediction per file or per dataset image,
    and the model, device and opacity controls, all over the shared
    `InspectState`. Predictions are sent one after another; a rejected one
    ends the loop, which is how an awaited rejection leaves a `for` loop. */
module Toolbar {
  import opened Wrappers
  import opened Strings
  import opened Paths
  import opened InspectState
  import Inference

  datatype ConnectionStatus = Idle | Connecting | Disconnected | ConnectionFailed | Connected

  datatype LightVariant = Neutral | Info | Negative | Positive

  /** The status light, its label and whether the Stop button is shown. */
  datatype StatusView = StatusView(variant: LightVariant, caption: string, showsStop: bool)

  function ConnectionStatusView(status: ConnectionStatus): (r: StatusView)
    ensures r.showsStop <==> status == Connected
    ensures r.variant == Positive <==> status == Connected
    ensures r.variant == Negative <==> status == Disconnected || status == ConnectionFailed
    ensures r.variant == Neutral <==> status == Idle
    ensures r.variant == Info <==> status == Connecting
    ensures status == Idle ==> r.caption == "Idle"
    ensures status == Connecting ==> r.caption == "Connecting"
    ensures status == Disconnected ==> r.caption == "Disconnected"
    ensures status == ConnectionFailed ==> r.caption == "Failed"
    ensures status == Connected ==> r.caption == "Connected"
  {
    match status
    case Idle => StatusView(Neutral, "Idle", false)
    case Connecting => StatusView(Info, "Connecting", false)
    case Disconnected => StatusView(Negative, "Disconnected", false)
    case ConnectionFailed => StatusView(Negative, "Failed", false)
    case Connected => StatusView(Positive, "Connected", true)
  }

  /** `sent` and `aborted` are what sending `all` one by one produces when
      `accepts` tells which calls succeed: every call up to and including the
      first rejected one. */
  predicate SentInOrder(all: seq<PredictCall>, accepts: PredictCall -> bool, sent: seq<PredictCall>, aborted: bool) {
    && |sent| <= |all|
    && sent == all[..|sent|]
    && (forall k :: 0 <= k < |sent| - 1 ==> accepts(sent[k]))
    && (aborted <==> |sent| > 0 && !accepts(sent[|sent| - 1]))
    && (!aborted ==> |sent| == |all|)
  }

  /** The awaited `for` loop over the calls. */
  method SendSequentially(all: seq<PredictCall>, accepts: PredictCall -> bool) returns (sent: seq<PredictCall>, aborted: bool)
    ensures SentInOrder(all, accepts, sent, aborted)
  {
    sent, aborted := [], false;
    var i := 0;
    while i < |all| && !aborted
      invariant 0 <= i <= |all|
      invariant sent == all[..i]
      invariant aborted ==> i > 0 && !accepts(all[i - 1])
      invariant forall k :: 0 <= k < i && (k < i - 1 || !aborted) ==> accepts(all[k])
    {
      sent := sent + [all[i]];
      aborted := !accepts(all[i]);
      i := i + 1;
    }
  }

  /** One call per picked file, for the route's project. */
  function FileCalls(projectId: string, modelId: string, device: string, files: seq<LocalFile>): (r: seq<PredictCall>)
    ensures |r| == |files|
    ensures forall k :: 0 <= k < |r| ==> r[k] == PredictCall(projectId, Some(modelId), device, Picked(files[k]))
  {
    seq(|files|, k requires 0 <= k < |files| => PredictCall(projectId, Some(modelId), device, Picked(files[k])))
  }

  /** `InferTrigger`'s `infer`: nothing without a selected model or without a
      file list; otherwise one prediction per file, in file order. */
  method InferFiles(projectId: string, st: State, files: Option<seq<LocalFile>>, accepts: PredictCall -> bool)
    returns (sent: seq<PredictCall>, aborted: bool)
    ensures st.selectedModelId.None? || files.None? ==> sent == [] && !aborted
    ensures st.selectedModelId.Some? && files.Some? ==>
      SentInOrder(FileCalls(projectId, st.selectedModelId.value, st.device, files.value), accepts, sent, aborted)
  {
    if st.selectedModelId.None? || files.None? {
      return [], false;
    }
    sent, aborted := SendSequentially(FileCalls(projectId, st.selectedModelId.value, st.device, files.value), accepts);
  }

  /** One call per dataset image, its file downloaded from the image's full
      URL, sent for the route's project. */
  function ImageCalls(projectId: string, modelId: string, device: string, images: seq<Inference.MediaItem>): (r: seq<PredictCall>)
    ensures |r| == |images|
    ensures forall k :: 0 <= k < |r| ==>
      r[k] == PredictCall(projectId, Some(modelId), device, Downloaded(ImagePath(images[k].projectId, images[k].id, Full)))
  {
    seq(|images|, k requires 0 <= k < |images| =>
      PredictCall(projectId, Some(modelId), device, Downloaded(ImagePath(images[k].projectId, images[k].id, Full))))
  }

  /** `InferButton`: nothing without a selected model; otherwise one
      prediction per dataset image, in order. A call stands for downloading
      the image and then posting it, and `accepts` judges both steps
      together: when the download fails, that call is still the last one in
      `sent` although no prediction request left the browser. */
  method InferImages(projectId: string, st: State, images: seq<Inference.MediaItem>, accepts: PredictCall -> bool)
    returns (sent: seq<PredictCall>, aborted: bool)
    ensures st.selectedModelId.None? ==> sent == [] && !aborted
    ensures st.selectedModelId.Some? ==>
      SentInOrder(ImageCalls(projectId, st.selectedModelId.value, st.device, images), accepts, sent, aborted)
  {
    if st.selectedModelId.None? {
      return [], false;
    }
    sent, aborted := SendSequentially(ImageCalls(projectId, st.selectedModelId.value, st.device, images), accepts);
  }

  /** When every prediction succeeds, all of them are sent. */
  lemma AllAcceptedAllSent(all: seq<PredictCall>, accepts: PredictCall -> bool, sent: seq<PredictCall>, aborted: bool)
    requires forall k :: 0 <= k < |all| ==> accepts(all[k])
    requires SentInOrder(all, accepts, sent, aborted)
    ensures sent == all && !aborted
  {
  }

  /** `ModelPicker`: a falsy key is ignored; otherwise only the selected
      model changes. */
  function PickModel(st: State, key: Option<string>): (r: State)
    ensures !Truthy(key) ==> r == st
    ensures Truthy(key) ==> r.selectedModelId == key && r.(selectedModelId := st.selectedModelId) == st
  {
    if Truthy(key) then st.(selectedModelId := Some(key.value)) else st
  }

  /** `DevicePicker`: only a falsy key is rejected; any other key is stored,
      even one that is not CPU, GPU or NPU. */
  function PickDevice(st: State, key: Option<string>): (r: State)
    ensures !Truthy(key) ==> r == st
    ensures Truthy(key) ==> r.device == key.value && r.(device := st.device) == st
  {
    if !Truthy(key) then st else st.(device := key.value)
  }

  /** `OpacitySlider`: only the opacity changes. */
  function SlideOpacity(st: State, opacity: real): (r: State)
    ensures r.opacity == opacity && r.(opacity := st.opacity) == st
  {
    st.(opacity := opacity)
  }

  /** The device picker's guard lets an unlisted key through. */
  lemma UnlistedDeviceStored(st: State)
    ensures PickDevice(st, Some("TPU")).device == "TPU"
  {
  }
}

=== FILE: trainable_models.dfy ===
/** The list of trainable model templates in the train dialog: the rating
    scale and its three-slot colour bars, the cards built from
    `/api/trainable-models`, and which card is selected. */
module TrainableModels {
  import opened Wrappers
  import opened Strings

  datatype Rating = Low | Medium | High

  /** A performance rating as the API gives it, 1, 2 or 3. */
  type Stat = n: int | 1 <= n <= 3 witness 1

  /** `RATING_MAP`. */
  function RatingOf(n: Stat): (r: Rating)
    ensures r == Low <==> n == 1
    ensures r == Medium <==> n == 2
    ensures r == High <==> n == 3
  {
    if n == 1 then Low else if n == 2 then Medium else High
  }

  /** How many of the three slots a rating fills. */
  function Level(r: Rating): (n: Stat) {
    match r
    case Low => 1
    case Medium => 2
    case High => 3
  }

  /** `RATING_MAP` is a bijection: it inverts `Level` both ways. */
  lemma RatingMapBijective(n: Stat, r: Rating)
    ensures Level(RatingOf(n)) == n
    ensures RatingOf(Level(r)) == r
  {
  }

  /** `RateColorPalette`: three tints of the brand blue and the empty grey. */
  datatype Colour = LowTint | MediumTint | HighTint | EmptyGrey

  /** The tint of the `i`-th slot. */
  function Tint(i: nat): Colour
    requires i < 3
  {
    if i == 0 then LowTint else if i == 1 then MediumTint else HighTint
  }

  /** `RateColors[rating]`. */
  function RateColors(r: Rating): (slots: seq<Colour>)
    ensures |slots| == 3
    ensures forall i :: 0 <= i < 3 ==> (slots[i] != EmptyGrey <==> i < Level(r))
    ensures forall i :: 0 <= i < 3 && slots[i] != EmptyGrey ==> slots[i] == Tint(i)
  {
    match r
    case Low => [LowTint, EmptyGrey, EmptyGrey]
    case Medium => [LowTint, MediumTint, EmptyGrey]
    case High => [LowTint, MediumTint, HighTint]
  }

  /** The number of filled slots of a bar. */
  function Filled(slots: seq<Colour>): nat
    decreases |slots|
  {
    if |slots| == 0 then 0 else (if slots[0] != EmptyGrey then 1 else 0) + Filled(slots[1..])
  }

  /** LOW, MEDIUM and HIGH fill 1, 2 and 3 slots. */
  lemma FilledSlotsMatchRating(r: Rating)
    ensures Filled(RateColors(r)) == Level(r)
  {
    var s := RateColors(r);
    assert s[1..][1..][1..] == [];
    assert Filled(s[1..][1..]) == if s[2] != EmptyGrey then 1 else 0;
    assert Filled(s[1..]) == (if s[1] != EmptyGrey then 1 else 0) + Filled(s[1..][1..]);
  }

  datatype PerformanceCategory = Other | Speed | Balance | Accuracy

  datatype Ratings = Ratings(accuracy: Stat, inferenceSpeed: Stat, trainingTime: Stat)

  /** `SupportedAlgorithm`. */
  datatype Algorithm = Algorithm(
    modelTemplateId: string,
    name: string,
    license: string,
    ratings: Ratings,
    category: PerformanceCategory)

  /** lodash's `capitalize`: first character upper case, the rest lower case
      (ASCII letters only). */
  function Capitalize(s: string): (r: string)
    ensures |r| == |s|
    ensures |s| > 0 ==> r[0] == UpperChar(LowerChar(s[0])) && r[1..] == ToLower(s[1..])
  {
    if |s| == 0 then "" else [UpperChar(LowerChar(s[0]))] + ToLower(s[1..])
  }

  /** `useAvailableModels` then the `algorithms` mapping: one card per name,
      in order, identified by the name, rated 1 everywhere, in category
      OTHER. */
  function Algorithms(trainableModels: seq<string>): (r: seq<Algorithm>)
    ensures |r| == |trainableModels|
    ensures forall k :: 0 <= k < |r| ==>
      && r[k].modelTemplateId == trainableModels[k]
      && r[k].name == Capitalize(trainableModels[k])
      && r[k].ratings == Ratings(1, 1, 1)
      && r[k].category == Other
      && r[k].license == "Apache 2.0"
  {
    seq(|trainableModels|, k requires 0 <= k < |trainableModels| =>
      Algorithm(trainableModels[k], Capitalize(trainableModels[k]), "Apache 2.0", Ratings(1, 1, 1), Other))
  }

  /** Every generated card shows the LOW bar on all three attributes. */
  lemma GeneratedCardsRateLow(trainableModels: seq<string>, k: nat)
    requires k < |trainableModels|
    ensures var a := Algorithms(trainableModels)[k];
      RatingOf(a.ratings.accuracy) == Low && RatingOf(a.ratings.inferenceSpeed) == Low
      && RatingOf(a.ratings.trainingTime) == Low
      && RateColors(Low) == [LowTint, EmptyGrey, EmptyGrey]
  {
  }

  /** `isSelected` of a card. */
  predicate IsSelected(selected: Option<string>, a: Algorithm) {
    selected == Some(a.modelTemplateId)
  }

  /** The selected cards of a list: those whose template id is the selected id. */
  function SelectedCards(selected: Option<string>, algorithms: seq<Algorithm>): (r: set<nat>)
    ensures forall k: nat :: k in r <==> k < |algorithms| && IsSelected(selected, algorithms[k])
  {
    set k: nat | k < |algorithms| && IsSelected(selected, algorithms[k])
  }

  lemma SubsetCard(a: set<nat>, b: set<nat>)
    requires a <= b
    ensures |a| <= |b|
  {
    assert b == a + (b - a);
  }

  /** With distinct template ids, at most one card is selected. */
  lemma AtMostOneCardSelected(selected: Option<string>, algorithms: seq<Algorithm>)
    requires forall i, j :: 0 <= i < j < |algorithms| ==> algorithms[i].modelTemplateId != algorithms[j].modelTemplateId
    ensures |SelectedCards(selected, algorithms)| <= 1
  {
    var r := SelectedCards(selected, algorithms);
    if r != {} {
      var i :| i in r;
      forall k | k in r
        ensures k == i
      {
      }
      assert r <= {i};
      SubsetCard(r, {i});
    }
  }
}

=== FILE: wrappers.dfy ===
/** Optional values and results: the model's rendering of JavaScript's
    `undefined`/`null`, Python's `None`, and of thrown errors. */
module Wrappers {

  /** `None` stands for `undefined`, `null` or Python's `None`. */
  datatype Option<+T> = None | Some(value: T) {

    /** The value, or `default` when absent. */
    function GetOr(default: T): T {
      match this
      case Some(v) => v
      case None => default
    }

    /** JavaScript's nullish coalescing `this ?? other`. */
    function OrElse(other: Option<T>): Option<T> {
      match this
      case Some(_) => this
      case None => other
    }
  }

  /** A value, or the error the source raises instead of returning. */
  datatype Result<+T, +E> = Success(value: T) | Failure(error: E)
}
